=== FILE: README.md ===
# CV sharing service: request handling in Dafny

This project is a model of the request-handling core of a CV-sharing HTTP backend: an
Express application over three MongoDB collections (users, CVs and recommendations). The
model covers:

- registering and logging in;
- authenticating a request from a Bearer token;
- editing and deleting one's own account;
- creating, reading, updating and deleting CVs;
- creating, reading and deleting recommendations about CVs.

Each collection is a `Store.Collection<T>` object whose `docs` field maps an ObjectId to a
document. Each HTTP handler is a method over those objects. It returns the reply's status
(and, where it matters, its payload), and its `modifies` clause names the collections it
writes. Its contract states the new table: unchanged, one document inserted, overwritten or
removed, and in what order relative to the checks.

The request validators are schemas, written as values of a small interpreter of the
`jsonschema` keywords they use (`Jsonschema.Validate`). Each schema is connected to:

- a plain predicate saying what it demands (for example `CvValidator.ValidCvBody`);
- the error message the validator builds.

The Mongoose schemas are datatypes with `WellFormed` predicates. The unique indexes on
username and email are the invariant `UserModel.UniqueAccounts`. Every handler that writes
users preserves it.

Module layout:

| area | modules |
|---|---|
| basic values | `Wrappers`, `Text`, `Json`, `Http` |
| the validation library | `Jsonschema` |
| the store | `Store` |
| the outside libraries | `Collaborators` |
| the schemas | `UserModel`, `CvModel`, `RecommendationModel` |
| the validators | `CvValidator`, `RecommendationValidator`, `UserValidator` |
| the token middleware | `JwtMiddleware` |
| the controllers | `CvController`, `RecommendationController`, `UserController`, `AuthController` |

The outside libraries enter as parameters, gathered in `Collaborators.Env`:

- bcrypt's `hash` and `compare`;
- jsonwebtoken's `sign` and `verify` (with the secret and the expiry inside them);
- the `email` format of `jsonschema`;
- the library's default error texts.

Other modelling choices:

- An ObjectId is `Store.Id`: 24 lower-case hexadecimal digits, its printed form.
- A string id from a URL goes through `Store.CastId`. Upper- and lower-case digits
  name the same id. Anything else is Mongoose's CastError, which every handler turns into 500.
- The `user` field of a CV update goes through `Store.CastValue`. It accepts such a string,
  or an object whose `_id` is one, as Mongoose's ObjectId cast does.
- The `cv` field of a new recommendation goes into a query. The model casts only such a string there.
  Arrays and operator objects are listed under "Left out".
- The id of an inserted document (`newId`) is a parameter.
- Each handler is one atomic step.

Two places where the model follows the code rather than the route table or the messages:

- `getCVById` is mounted without the token middleware, so `req.user` is undefined there.
  `CvController.GetCVById` takes the requester as an `Option`. With `None`, a private CV
  replies 500.
- The 403 messages of `updateCV` and `deleteCV` say that only a CV's owner may update or delete it. The code
  does otherwise (see Findings). The as-written handlers keep the code's behaviour, and the
  corrected ones state the evident intent.

## Model

| member | source | states |
|---|---|---|
| `Text.TrimStartAppend` | src/validator/recommendation.js:39 | trimming the start of a string is unaffected by appending a non-blank character |
| `Text.TrimEndAfterComma` | src/validator/recommendation.js:39 | trimming the end of `s + ", "` leaves exactly `s + ","` |
| `Text.CanonicalObjectId` | src/models/CV.js:6-10 | the ObjectId a hex string denotes is its lower-case form; ids already printed map to themselves |
| `Jsonschema.Messages` | src/validator/cv.js:50-52 | one message per error, in order: the schema's `errorMessage` when non-empty, else the library's text |
| `Jsonschema.MissingRequiredEmpty` | src/validator/cv.js:45 | no `required` error exactly when every listed property is present |
| `Jsonschema.NoViolationsIffConforms` | src/validator/cv.js:48-49 | the error list is empty if and only if the value satisfies the schema's meaning |
| `Jsonschema.ItemsNoViolations` | src/validator/cv.js:11-15 | an array's items produce no error exactly when every item from the index on conforms |
| `Jsonschema.PropertiesNoViolations` | src/validator/cv.js:8-44 | the declared properties produce no error exactly when each present one conforms |
| `Jsonschema.PropertiesConformAll` | src/validator/cv.js:8-44 | the property-by-property check equals "every declared property that is present conforms" |
| `Store.CastIdIgnoresCase` | src/controllers/cv.js:68 | two hexadecimal id strings find the same document exactly when they differ at most in letter case |
| `Store.CastPrintedId` | src/controllers/cv.js:147 | an id in its printed form casts to itself |
| `Store.CastValueOfId` | src/controllers/cv.js:137 | in a body, an id's printed form and a document carrying it as `_id` both cast to that id |
| `Store.FindById` | src/controllers/cv.js:68-77 | a lookup is a cast error for a non-ObjectId, missing for an unknown id, else the stored document |
| `UserModel.SaveKeepsAccountsUnique` | src/models/User.js:8-25 | saving an admissible document keeps usernames and emails unique |
| `UserModel.FindByEmail` | src/models/User.js:41 | finds the account with that email, or reports that no account has it |
| `UserModel.ExistenceCheckIsIndexTest` | src/models/User.js:60-77 | for a new id and a valid document, no account having its email or username is exactly what the unique indexes need for the save |
| `UserModel.NotExistingIsUnique` | src/models/User.js:60-77 | a well-formed document that passes the existence check can be saved and keeps accounts unique |
| `UserModel.VerifyLogin` | src/models/User.js:38-58 | "User not found." exactly when no account has the email; success exactly when one has it and the password compares equal, and then it is that account; a thrown compare exactly when the account exists and the password is not a string |
| `CvValidator.ExperienceSchemaMeaning` | src/validator/cv.js:16-29 | an experience conforms exactly when company, position and startDate are non-empty strings and endDate, description are non-empty strings when present |
| `CvValidator.EducationSchemaMeaning` | src/validator/cv.js:30-42 | an education entry conforms exactly when school, degree and startDate are non-empty strings and endDate is one when present |
| `CvValidator.ExperiencesSchemaMeaning` | src/validator/cv.js:16-29 | an experiences array conforms exactly when every entry is a valid experience |
| `CvValidator.EducationListSchemaMeaning` | src/validator/cv.js:30-42 | an education array conforms exactly when every entry is valid |
| `CvValidator.CvPropertiesMeaning` | src/validator/cv.js:8-44 | the six declared properties, when present, follow their rules |
| `CvValidator.CvSchemaMeaning` | src/validator/cv.js:6-46 | a body conforms exactly when all six fields are present, title and summary non-empty, skills a non-empty list of non-empty strings, every entry complete and visibility public or private |
| `CvValidator.VerifyCV` | src/validator/cv.js:48-59 | success if and only if the body is valid; otherwise `success: false` and the messages of all errors joined by ", " |
| `RecommendationValidator.RecommendationSchemaMeaning` | src/validator/recommendation.js:6-27 | a body conforms exactly when content is a non-empty string, rating a whole number in 1..5, and cvId, if present, 24 hex digits |
| `RecommendationValidator.CommaTerminatedIsJoin` | src/validator/recommendation.js:32-36 | the accumulated string is the messages joined by ", " followed by ", " |
| `RecommendationValidator.DropFinalComma` | src/validator/recommendation.js:39 | removes one comma exactly when the string ends with one, and nothing else |
| `RecommendationValidator.CleanedIsJoin` | src/validator/recommendation.js:39 | trimming and dropping the final comma gives the messages joined by ", ", less leading blanks |
| `RecommendationValidator.VerifyRecommendation` | src/validator/recommendation.js:29-44 | `{ success: true }` if and only if the body is valid; otherwise only a message, the errors' messages joined by ", " |
| `UserValidator.UserSchemaMeaning` | src/validator/user.js:7-41 | a body conforms exactly when the three names have 1..20 characters, the email has the `email` format, the password has 6+ characters with an upper-case letter and a digit, all present |
| `UserValidator.Register` | src/validator/user.js:44-64 | passes if and only if the body is valid and no account has its email or username; a schema failure gives the joined messages without consulting the accounts, a taken name "User already exists…" |
| `JwtMiddleware.BearerToken` | src/middleware/jwt.js:8-17 | a token exists exactly when the header starts with "Bearer ", and the header is that prefix followed by the token |
| `JwtMiddleware.BearerTokenOfHeader` | src/middleware/jwt.js:17 | stripping the prefix from "Bearer " + t gives back t |
| `JwtMiddleware.Authenticate` | src/middleware/jwt.js:8-52 | no usable header → no token; malformed → invalid, expired → expired, other errors → 500; a valid token is accepted exactly when an account has its email, and then that account is the requester |
| `JwtMiddleware.VerifyToken` | src/middleware/jwt.js:5-54 | on acceptance sets `req.user` and calls `next` once, sending nothing; on rejection replies with the rejection's status and touches neither |
| `CvController.CvRoundTrip` | src/models/CV.js:4-45 | every CV with non-empty texts is the document built from its own request body, and that body passes validation |
| `CvController.CreateCV` | src/controllers/cv.js:6-43 | an invalid body → 400 with the validator's message and no write; otherwise 201 and exactly one new CV owned by the requester, whatever the body says; well-formedness of the collection is kept |
| `CvController.GetAllPublicCvs` | src/controllers/cv.js:45-56 | exactly the CVs whose visibility is public |
| `CvController.GetCVById` | src/controllers/cv.js:64-97 | bad id → 500, unknown → 404 before any visibility test; public → 200; private → 500 without a loadable owner or a requester, 403 for another requester, 200 for the owner; a CV is returned only when public or the requester's |
| `CvController.GetCVsByUserId` | src/controllers/cv.js:99-123 | exactly the requester's CVs; 404 exactly when there are none |
| `CvController.UpdateWithOwnContent` | src/controllers/cv.js:137-139 | sending a CV's own content back, without `user`, leaves the stored CV as it was |
| `CvController.UpdateIsIdempotent` | src/controllers/cv.js:137-139 | applying the same update twice stores what applying it once does |
| `CvController.UpdateCV` | src/controllers/cv.js:125-165 | invalid → 400, bad id or `user` → 500, unknown → 404, all with no write; otherwise the CV is overwritten first, and then 200 exactly when the UPDATED owner is the requester |
| `CvController.ForeignUpdateOverwrites` | src/controllers/cv.js:137-151 | a requester who does not own a CV changes it and still does not own it, hence a 403 reply over a changed table |
| `CvController.UpdateClaimsOwnership` | src/controllers/cv.js:137-151 | a body naming the requester as `user`, by id or by a document with that `_id`, makes any CV pass the ownership check |
| `CvController.UpdateCVCorrected` | src/controllers/cv.js:125-165 | only the owner's valid update is written and replied 200, the CV staying theirs; a non-owner gets 403 with the table unchanged |
| `CvController.DeleteCV` | src/controllers/cv.js:167-196 | bad id → 500, unknown → 404, no write; otherwise the CV is removed first, and then 200 exactly when the requester owned it, else 403 (500 without an owner) |
| `CvController.DeleteCVCorrected` | src/controllers/cv.js:167-196 | a CV is removed, with 200, exactly when the requester owns it; 403 leaves the table unchanged |
| `RecommendationController.CreateRecommendation` | src/controllers/recommendation.js:7-14 | always 400 and no write; the error is absent exactly when the body was valid |
| `RecommendationController.NewRecommendation` | src/controllers/recommendation.js:22-27 | the saved recommendation is well-formed, written by the requester, about the body's CV |
| `RecommendationController.CreateRecommendationCorrected` | src/controllers/recommendation.js:7-41 | invalid → 400; no or unknown CV → 404; bad reference → 500; otherwise 201 and one new recommendation by the requester; nothing written unless 201 |
| `RecommendationController.GetRecommendationsByCv` | src/controllers/recommendation.js:43-64 | 404 for an unknown CV; otherwise exactly the recommendations about it, whatever its visibility |
| `RecommendationController.GetRecommendationById` | src/controllers/recommendation.js:66-87 | 404 for an unknown id, 200 with the stored recommendation otherwise |
| `RecommendationController.UpdateRecommendation` | src/controllers/recommendation.js:89-99 | always 400; the error is absent exactly when the body was valid |
| `RecommendationController.DeleteRecommendation` | src/controllers/recommendation.js:131-160 | 404 before 403; removed, with 200, exactly when the requester is its author; otherwise the table is unchanged |
| `UserController.EditIsIdempotent` | src/controllers/user.js:34-37 | sending the same edit twice gives the same document as sending it once |
| `UserController.EditKeepsRequiredFields` | src/controllers/user.js:34-37 | an edit of a valid account keeps every required field non-empty, so only the email pattern can make its save fail |
| `UserController.UpdateMyInfos` | src/controllers/user.js:21-63 | unknown requester → 404; outside the password branch 200 with nothing stored; inside it a non-string password or a rejected save → 500 with nothing stored, else the edits are stored with the password replaced by its hash and the reply reports the stored email; accounts stay unique |
| `UserController.ProfileEditIsNotSaved` | src/controllers/user.js:38-45 | a body changing only the first name misses the branch that saves |
| `UserController.CorrectedEdit` | src/controllers/user.js:34-45 | the document to save is the edited one; its password is the hash of the new one exactly when a non-empty new password is given and `oldPassword` compares equal to the stored hash, and otherwise the stored hash |
| `UserController.UpdateMyInfosCorrected` | src/controllers/user.js:21-63 | the edited document is stored with 200 exactly when it can be saved, with or without a password change, and otherwise 500 with nothing stored; 404 for an unknown requester; accounts stay unique |
| `UserController.DocumentText` | src/controllers/user.js:75 | a document's text begins with "{" |
| `UserController.DocumentTextIsNotAnId` | src/controllers/user.js:75 | a document's text is never an id |
| `UserController.DeleteUser` | src/controllers/user.js:65-90 | unknown → 404 with no write; otherwise the account is removed and the reply is 403 every time |
| `UserController.DeleteUserCorrected` | src/controllers/user.js:65-90 | the requester's account is removed with 200; 404 when it is not there |
| `AuthController.Register` | src/controllers/auth.js:8-68 | missing fields, an invalid body, a taken email or username → 400 (the last with the validator's "already exists" message); a valid new body whose save is rejected → 500; 201 exactly when all checks and the save pass, inserting one account with the hashed password and replying a profile without it; no write otherwise; accounts stay unique |
| `AuthController.RegisterSaveSucceeds` | src/controllers/auth.js:28-49 | once the checks pass, the save cannot fail, provided the `email` format implies the schema's pattern and hashes are non-empty |
| `AuthController.Login` | src/controllers/auth.js:70-102 | 200 with a token exactly when an account has the body's email and the password compares equal; the token is signed over exactly that email; 401 and no token otherwise |

## Left out

- Store I/O failures are not modelled: a lost connection or a rejected query would reach each handler's `catch` and give 500. The store never fails, except for the cast errors above.
- `src/controllers/cv.js:58-60` holds an object literal with a value and no key, so the file does not parse as written. The model reads each handler's logic as written and leaves that one reply out.
- Mongoose also accepts 12-character strings as ObjectIds. The model treats them as cast errors.
- The `Date` casting of experience and education dates is not modelled; dates stay strings. So `CvController.CreateCV`, `CvController.UpdateCV` and `CvController.UpdateCVCorrected` do not model the 500, with no write, that an unparseable date gives. A stored date reads back as an ISO timestamp, so `CvController.CvRoundTrip` and `CvController.UpdateWithOwnContent` hold for dates kept as strings only.
- `populate`'s copy of the owner's fields into the reply is not modelled. Only its `null` for a missing owner is kept, because it decides `getCVById`'s status.
- Query results are maps, not ordered lists, so the reply order is not modelled.
- `_id` fields in update bodies are not modelled. Undeclared fields are dropped, as strict schemas do.
- UserController.ApplyField: Mongoose turns a truthy number or boolean into its text. The model counts such a value as one the field cannot hold.
- UserController.UpdateMyInfos: an `oldPassword` that is not a string counts as unequal to the stored hash. JavaScript's loose equality would accept a one-element array holding the hash.
- UserController.UpdateMyInfos: the unawaited `bcrypt.compare`'s Promise is modelled as truthy, as it is. What that Promise does when it is rejected is not modelled.
- AuthController.Login: a body email that is not a string finds no account. Mongoose reads an array there as an implicit `$in`, and a query-operator object as operators. So `{"email": ["<an account's email>"], ...}` with that account's password logs in with 200, and the token is signed over the array. The model replies 401 to both forms.
- RecommendationController.CreateRecommendationCorrected: every object or array as `cv` counts as a cast error (500). An object of valid query operators (such as `{"$ne": null}`) would instead run as a query, and could find some CV. An array holding an existing CV's id is an implicit `$in` that finds that CV. The new recommendation then casts the array through its `toString()`, so the reply is 201 where the model gives 500.
- Store.CastValue: Mongoose casts an array through its `toString()`, so a one-element array holding an id may cast to it. The model counts every array as a cast error.
- Request-body numbers are exact reals. `JSON.parse` rounds decimal literals to doubles and turns out-of-range ones into infinities. So a rating written `4.9999999999999999` parses as 5 and is accepted, where the model rejects it.
- RecommendationController.UpdateRecommendation: only its validation step is modelled. That step always replies 400, so the write after it is never reached. No route mounts the handler either.
- `getMyInfos` only copies four fields of `req.user` into the reply. It has no decision to model.
- `logout` and the cookie set by `login` are transport only.
- The middleware reads only the `Authorization` header, and nothing in the model connects it to that cookie.
- Token signing, expiry and the secret are inside `Collaborators.Env.sign` and `verify`.
- The exact error texts of `jsonschema`, and the message of an error bcrypt throws, are the abstract `describe` and are not modelled.
- UserController.DocumentText: Mongoose's real text for a document is only approximated. The model keeps its one property that matters, the leading "{".
- Route wiring is not modelled:
  - the delete route without `:id`;
  - a list route naming a handler that does not exist;
  - the missing update route.
- Timestamps, logging and the response texts are not modelled, except the messages the validators build.
- Concurrency is not modelled: each handler is one atomic step.

## Findings

| source | as written | input that shows it | evidently intended | confidence | as-written member | corrected member |
|---|---|---|---|---|---|---|
| src/controllers/cv.js:137-151 | the update is written before the ownership check, and the check reads the owner of the updated document | a valid body from a non-owner: 403, but the CV is overwritten; the same body with `user` set to the requester's id: 200 and the CV changes hands | only the owner may update, and the owner is not part of the update | high (not executed) | `CvController.UpdateCV` | `CvController.UpdateCVCorrected` |
| src/controllers/cv.js:172-185 | the CV is deleted before the ownership check | a non-owner deletes another user's CV: 403, and the CV is gone | only the owner may delete | high (not executed) | `CvController.DeleteCV` | `CvController.DeleteCVCorrected` |
| src/controllers/recommendation.js:10 | `if (isNotValid)` tests the validator's result object, which is always truthy | any body, valid or not: 400 and nothing stored | test `success` and create the recommendation for a valid body | high (not executed) | `RecommendationController.CreateRecommendation` | `RecommendationController.CreateRecommendationCorrected` |
| src/controllers/user.js:38-45 | the edited profile is saved only inside the password branch, which needs `oldPassword` to equal the stored hash string | `{ "firstname": "Ann" }`: 200 "User updated successfully", and nothing is stored | save the edits in every case; change the password only when the old one verifies | high (not executed) | `UserController.UpdateMyInfos` | `UserController.UpdateMyInfosCorrected` |
| src/controllers/user.js:75-79 | after the deletion, the document's text is compared with the requester's id, and the two never match | any existing account deleting itself: 403, and the account is gone | compare the document's id and reply 200 | high (not executed) | `UserController.DeleteUser` | `UserController.DeleteUserCorrected` |

=== FILE: auth_controller.dfy ===
/** The authentication handlers (src/controllers/auth.js): registration and login. */
module AuthController {
  import opened Wrappers
  import opened Text
  import opened Json
  import opened Jsonschema
  import opened Verdicts
  import opened Store
  import opened Http
  import opened UserModel
  import opened Collaborators
  import UserValidator

  /** `!username || !email || !password || !firstname || !lastname` is false. */
  predicate RequiredFieldsPresent(body: Json) {
    && Truthy(Member(body, "username")) && Truthy(Member(body, "email")) && Truthy(Member(body, "password"))
    && Truthy(Member(body, "firstname")) && Truthy(Member(body, "lastname"))
  }

  /** The account `register` saves: the body's fields with the password replaced by its hash. */
  function NewUser(body: Json, hash: string -> string): (u: User)
    requires UserValidator.ShapedUserBody(body)
    ensures u.password == hash(body.fields["password"].s)
    ensures u.email == body.fields["email"].s && u.username == body.fields["username"].s
  {
    var f := body.fields;
    User(f["username"].s, f["firstname"].s, f["lastname"].s, f["email"].s, hash(f["password"].s))
  }

  /** What the 201 reply shows of the new account; there is no password in it. */
  datatype Profile = Profile(username: string, email: string, firstname: string, lastname: string)

  function ProfileOf(u: User): Profile {
    Profile(u.username, u.email, u.firstname, u.lastname)
  }

  /**
   * `register`: missing fields, a body the validator rejects and a taken
   * email or username each get 400; a document the schema or a unique index
   * rejects on save gets 500; otherwise the account is inserted with the
   * hashed password and 201 shows its profile. Nothing is written unless
   * the reply is 201, and the accounts stay unique.
   */
  method Register(users: Collection<User>, body: Json, newId: Id, env: Env)
    returns (status: Status, profile: Option<Profile>, error: Option<string>)
    requires newId !in users.docs && UniqueAccounts(users.docs)
    modifies users
    ensures !RequiredFieldsPresent(body) ==> status == BadRequest
    ensures RequiredFieldsPresent(body) && !UserValidator.ValidUserBody(body, env.isEmail) ==>
      status == BadRequest && error == UserValidator.Register(old(users.docs), body, env.isEmail, env.describe).message
    ensures status == Created <==>
      && RequiredFieldsPresent(body) && UserValidator.ValidUserBody(body, env.isEmail)
      && !CheckUserExists(old(users.docs), body.fields["email"].s, body.fields["username"].s)
      && Admissible(old(users.docs), newId, NewUser(body, env.hash))
    ensures status == Created ==>
      && users.docs == old(users.docs)[newId := NewUser(body, env.hash)]
      && users.docs[newId].password == env.hash(body.fields["password"].s)
      && profile == Some(ProfileOf(users.docs[newId]))
    ensures status != Created ==> users.docs == old(users.docs) && profile == None
    ensures status != Created && status != InternalError ==> status == BadRequest
    ensures
      (&& RequiredFieldsPresent(body) && UserValidator.ValidUserBody(body, env.isEmail)
       && CheckUserExists(old(users.docs), body.fields["email"].s, body.fields["username"].s))
      ==> status == BadRequest && error == Some(UserValidator.AlreadyExists)
    ensures
      (&& RequiredFieldsPresent(body) && UserValidator.ValidUserBody(body, env.isEmail)
       && !CheckUserExists(old(users.docs), body.fields["email"].s, body.fields["username"].s)
       && !Admissible(old(users.docs), newId, NewUser(body, env.hash)))
      ==> status == InternalError
    ensures UniqueAccounts(users.docs)
  {
    if !RequiredFieldsPresent(body) {
      return BadRequest, None, Some("Missing required fields: username, email, password, firstname, or lastname.");
    }
    var isNotValidateUser := UserValidator.Register(users.docs, body, env.isEmail, env.describe);
    if !isNotValidateUser.Passed() {
      return BadRequest, None, isNotValidateUser.message;
    }
    var f := body.fields;
    if CheckUserExists(users.docs, f["email"].s, f["username"].s) {
      return BadRequest, None, Some("User with this email or username already exists.");
    }
    var newUser := NewUser(body, env.hash);
    if !Admissible(users.docs, newId, newUser) {
      return InternalError, None, None;
    }
    SaveKeepsAccountsUnique(users.docs, newId, newUser);
    users.docs := users.docs[newId := newUser];
    return Created, Some(ProfileOf(newUser)), None;
  }

  /**
   * The save in `register` cannot fail once the checks before it pass, as
   * long as every address the `email` format accepts has the shape the
   * schema's pattern asks for and hashes are never empty.
   */
  lemma {:induction false} RegisterSaveSucceeds(users: map<Id, User>, body: Json, newId: Id, env: Env)
    requires newId !in users && UniqueAccounts(users)
    requires forall s :: env.isEmail(s) ==> EmailShape(s)
    requires forall s :: env.hash(s) != ""
    requires UserValidator.ValidUserBody(body, env.isEmail)
    requires !CheckUserExists(users, body.fields["email"].s, body.fields["username"].s)
    ensures Admissible(users, newId, NewUser(body, env.hash))
  {
    var u := NewUser(body, env.hash);
    assert EmailShape(u.email);
    assert WellFormed(u);
    NotExistingIsUnique(users, newId, u);
  }

  /**
   * `login`: 401 and no token when `verifyLogin` fails; otherwise 200 and a
   * token signed over exactly the email the body gave.
   */
  method Login(users: Collection<User>, body: Json, env: Env) returns (status: Status, token: Option<string>)
    requires UniqueAccounts(users.docs)
    ensures token.Some? <==> status == Ok
    ensures status != Ok ==> status == Unauthorized
    ensures status == Ok <==>
      && StringMember(body, "email").Some?
      && exists id :: id in users.docs && users.docs[id].email == StringMember(body, "email").value
           && StringMember(body, "password").Some? && env.compare(StringMember(body, "password").value, users.docs[id].password)
    ensures status == Ok ==> token == Some(env.sign(StringMember(body, "email").value))
  {
    // A body email that is not a string finds nobody.
    var email := StringMember(body, "email");
    if email.None? {
      return Unauthorized, None;
    }
    var result := VerifyLogin(users.docs, email.value, Member(body, "password"), env.compare);
    if !result.LoginSucceeded? {
      return Unauthorized, None;
    }
    return Ok, Some(env.sign(email.value));
  }
}

=== FILE: collaborators.dfy ===
/**
 * The libraries the service calls but does not implement, given to the
 * handlers as values: bcrypt, jsonwebtoken (with its process-wide secret and
 * expiry), the `email` format of jsonschema and the library's default error
 * texts.
 */
module Collaborators {
  import opened Jsonschema

  /** What `jwt.verify(token, secret)` does: decode the payload's email, or throw one of its errors. */
  datatype TokenCheck =
    | Decoded(email: string)
    | Malformed      // JsonWebTokenError: bad format or signature
    | Expired        // TokenExpiredError
    | NotYetActive   // NotBeforeError, whose name is neither of the two above

  datatype Env = Env(
    hash: string -> string,             // bcrypt.hash(password, 10)
    compare: (string, string) -> bool,  // await bcrypt.compare(plain, hash)
    sign: string -> string,             // jwt.sign({ email }, secret, { expiresIn })
    verify: string -> TokenCheck,       // jwt.verify(token, secret)
    isEmail: string -> bool,            // jsonschema's `format: 'email'`
    describe: Violation -> string)      // jsonschema's `error.message`
}

=== FILE: cv_controller.dfy ===
/**
 * The CV handlers (src/controllers/cv.js) over the CV collection. `me` is
 * `req.user.id`, set by the token middleware on the routes that use it;
 * `newId` is the ObjectId the driver assigns to an inserted document.
 */
module CvController {
  import opened Wrappers
  import opened Text
  import opened Json
  import opened Jsonschema
  import opened Verdicts
  import opened Store
  import opened Http
  import UserModel
  import opened CvModel
  import opened CvValidator

  // From a validated request body to a document, and back.

  function OptionalString(f: map<string, Json>, key: string): (r: Option<string>)
    requires OptionalText(f, key)
    ensures r.Some? <==> key in f
  {
    if key in f then Some(f[key].s) else None
  }

  function ExperienceFromJson(e: Json): Experience
    requires ValidExperience(e)
  {
    Experience(e.fields["company"].s, e.fields["position"].s, e.fields["startDate"].s,
      OptionalString(e.fields, "endDate"), OptionalString(e.fields, "description"))
  }

  function EducationFromJson(e: Json): Education
    requires ValidEducation(e)
  {
    Education(e.fields["school"].s, e.fields["degree"].s, e.fields["startDate"].s, OptionalString(e.fields, "endDate"))
  }

  /** `visibility || "public"`; after validation the body always names one of the two. */
  function VisibilityOf(v: Json): Visibility {
    if v == JStr("private") then Private else Public
  }

  /** The document Mongoose builds from a validated body and an owner reference; fields the schema does not declare are dropped. */
  function CvFromBody(owner: Option<Id>, body: Json): Cv
    requires ValidCvBody(body)
  {
    var f := body.fields;
    var skills := f["skills"].items;
    var exps := f["experiences"].items;
    var edus := f["education"].items;
    Cv(owner, f["title"].s, f["summary"].s,
      seq(|skills|, i requires 0 <= i < |skills| => skills[i].s),
      seq(|exps|, i requires 0 <= i < |exps| => ExperienceFromJson(exps[i])),
      seq(|edus|, i requires 0 <= i < |edus| => EducationFromJson(edus[i])),
      VisibilityOf(f["visibility"]))
  }

  function OptionalField(m: map<string, Json>, key: string, v: Option<string>): map<string, Json> {
    if v.Some? then m[key := JStr(v.value)] else m
  }

  function ExperienceToJson(x: Experience): Json {
    var m := map["company" := JStr(x.company), "position" := JStr(x.position), "startDate" := JStr(x.startDate)];
    JObj(OptionalField(OptionalField(m, "endDate", x.endDate), "description", x.description))
  }

  function EducationToJson(x: Education): Json {
    var m := map["school" := JStr(x.school), "degree" := JStr(x.degree), "startDate" := JStr(x.startDate)];
    JObj(OptionalField(m, "endDate", x.endDate))
  }

  /** The request body that describes a CV's content. */
  function CvToBody(cv: Cv): Json {
    JObj(map[
      "title" := JStr(cv.title),
      "summary" := JStr(cv.summary),
      "skills" := JArr(seq(|cv.skills|, i requires 0 <= i < |cv.skills| => JStr(cv.skills[i]))),
      "experiences" := JArr(seq(|cv.experiences|, i requires 0 <= i < |cv.experiences| => ExperienceToJson(cv.experiences[i]))),
      "education" := JArr(seq(|cv.education|, i requires 0 <= i < |cv.education| => EducationToJson(cv.education[i]))),
      "visibility" := JStr(if cv.visibility == Private then "private" else "public")])
  }

  predicate NonEmptyOption(v: Option<string>) {
    v.Some? ==> v.value != ""
  }

  predicate PresentableExperience(x: Experience) {
    x.company != "" && x.position != "" && x.startDate != "" && NonEmptyOption(x.endDate) && NonEmptyOption(x.description)
  }

  predicate PresentableEducation(x: Education) {
    x.school != "" && x.degree != "" && x.startDate != "" && NonEmptyOption(x.endDate)
  }

  /** A CV whose content the validator can express: every text non-empty, at least one skill. */
  predicate Presentable(cv: Cv) {
    && cv.title != "" && cv.summary != "" && |cv.skills| >= 1
    && (forall i :: 0 <= i < |cv.skills| ==> cv.skills[i] != "")
    && (forall i :: 0 <= i < |cv.experiences| ==> PresentableExperience(cv.experiences[i]))
    && (forall i :: 0 <= i < |cv.education| ==> PresentableEducation(cv.education[i]))
  }

  lemma ExperienceRoundTrip(x: Experience)
    requires PresentableExperience(x)
    ensures ValidExperience(ExperienceToJson(x)) && ExperienceFromJson(ExperienceToJson(x)) == x
  {
  }

  lemma EducationRoundTrip(x: Education)
    requires PresentableEducation(x)
    ensures ValidEducation(EducationToJson(x)) && EducationFromJson(EducationToJson(x)) == x
  {
  }

  /** Every presentable CV is the document built from its own body: the body passes validation and loses nothing. */
  lemma CvRoundTrip(cv: Cv)
    requires Presentable(cv)
    ensures ValidCvBody(CvToBody(cv))
    ensures CvFromBody(cv.owner, CvToBody(cv)) == cv
  {
    var b := CvToBody(cv);
    forall i | 0 <= i < |cv.experiences|
      ensures ValidExperience(ExperienceToJson(cv.experiences[i]))
      ensures ExperienceFromJson(ExperienceToJson(cv.experiences[i])) == cv.experiences[i]
    {
      ExperienceRoundTrip(cv.experiences[i]);
    }
    forall i | 0 <= i < |cv.education|
      ensures ValidEducation(EducationToJson(cv.education[i]))
      ensures EducationFromJson(EducationToJson(cv.education[i])) == cv.education[i]
    {
      EducationRoundTrip(cv.education[i]);
    }
    assert ValidCvBody(b);
    var r := CvFromBody(cv.owner, b);
    assert r.skills == cv.skills;
    assert r.experiences == cv.experiences;
    assert r.education == cv.education;
  }

  /** The schema's invariant over the whole collection. */
  predicate AllWellFormed(docs: map<Id, Cv>) {
    forall id :: id in docs ==> WellFormed(docs[id])
  }

  // The handlers.

  /**
   * `createCV`: an invalid body gets 400 with the validator's message and
   * no write; a valid one is inserted as a CV owned by the requester,
   * whatever `user` the body names, and gets 201.
   */
  method CreateCV(cvs: Collection<Cv>, me: Id, body: Json, newId: Id, isEmail: string -> bool, describe: Violation -> string)
    returns (status: Status, error: Option<string>)
    requires newId !in cvs.docs
    modifies cvs
    ensures status == BadRequest <==> !ValidCvBody(body)
    ensures status == BadRequest ==> cvs.docs == old(cvs.docs) && error == VerifyCV(body, isEmail, describe).message
    ensures status != BadRequest ==>
      && status == Created && error == None
      && cvs.docs == old(cvs.docs)[newId := CvFromBody(Some(me), body)]
      && OwnedBy(cvs.docs[newId], me) && WellFormed(cvs.docs[newId])
    ensures AllWellFormed(old(cvs.docs)) ==> AllWellFormed(cvs.docs)
  {
    var isNotValid := VerifyCV(body, isEmail, describe);
    if !isNotValid.Passed() {
      return BadRequest, isNotValid.message;
    }
    var newCv := CvFromBody(Some(me), body);
    cvs.docs := cvs.docs[newId := newCv];
    return Created, None;
  }

  /** `getAllPublicCvs`: exactly the public CVs, whoever asks. */
  method GetAllPublicCvs(cvs: Collection<Cv>) returns (status: Status, listed: map<Id, Cv>)
    ensures status == Ok
    ensures forall id :: id in listed <==> id in cvs.docs && cvs.docs[id].visibility == Public
    ensures forall id :: id in listed ==> listed[id] == cvs.docs[id]
  {
    listed := map id | id in cvs.docs && cvs.docs[id].visibility == Public :: cvs.docs[id];
    status := Ok;
  }

  /**
   * `getCVById`. A private CV needs its owner to be loadable (the populated
   * `user` is `null` otherwise, and reading its `_id` throws) and a
   * requester (`req.user` is undefined on a route without the middleware,
   * which throws too); a requester other than the owner gets 403.
   */
  method GetCVById(cvs: Collection<Cv>, users: Collection<UserModel.User>, requester: Option<Id>, id: string)
    returns (status: Status, found: Option<Cv>)
    ensures !IsObjectIdHex(id) ==> status == InternalError
    ensures IsObjectIdHex(id) && CastId(id).value !in cvs.docs ==> status == NotFound
    ensures IsObjectIdHex(id) && CastId(id).value in cvs.docs ==>
      var cv := cvs.docs[CastId(id).value];
      && (cv.visibility == Public ==> status == Ok)
      && (cv.visibility == Private ==>
           && (status == InternalError <==> cv.owner.None? || cv.owner.value !in users.docs || requester.None?)
           && (status == Forbidden <==>
                 cv.owner.Some? && cv.owner.value in users.docs && requester.Some? && !OwnedBy(cv, requester.value))
           && (status == Ok <==>
                 cv.owner.Some? && cv.owner.value in users.docs && requester.Some? && OwnedBy(cv, requester.value)))
      && (status == Ok ==> found == Some(cv))
    ensures status == Ok ==> found.Some? && (found.value.visibility == Public || (requester.Some? && OwnedBy(found.value, requester.value)))
    ensures status != Ok ==> found == None
  {
    match FindById(cvs.docs, id)
    case CastFailed => return InternalError, None;
    case Missing => return NotFound, None;
    case Found(_, cv) =>
      if cv.visibility == Private {
        // `cv.user._id.toString() !== req.user.id`
        if cv.owner.None? || cv.owner.value !in users.docs {
          return InternalError, None;
        }
        if requester.None? {
          return InternalError, None;
        }
        if cv.owner.value != requester.value {
          return Forbidden, None;
        }
      }
      return Ok, Some(cv);
  }

  /** `getCVsByUserId`: exactly the requester's CVs, or 404 when there are none. */
  method GetCVsByUserId(cvs: Collection<Cv>, me: Id) returns (status: Status, mine: map<Id, Cv>)
    ensures forall id :: id in mine <==> id in cvs.docs && OwnedBy(cvs.docs[id], me)
    ensures forall id :: id in mine ==> mine[id] == cvs.docs[id]
    ensures status == NotFound <==> mine == map[]
    ensures status != NotFound ==> status == Ok
  {
    mine := map id | id in cvs.docs && OwnedBy(cvs.docs[id], me) :: cvs.docs[id];
    if mine == map[] {
      status := NotFound;
    } else {
      status := Ok;
    }
  }

  /** How Mongoose casts the body's `user` field in an update. */
  datatype OwnerCast = KeepOwner | SetOwner(owner: Option<Id>) | OwnerCastError

  /**
   * The cast of the body's `user`: absent keeps the owner, `null` clears it,
   * a value Mongoose casts to an ObjectId sets it, and any other value is a
   * CastError.
   */
  function CastOwnerField(body: Json): (r: OwnerCast)
    ensures r == KeepOwner <==> Member(body, "user").None?
    ensures r == SetOwner(None) <==> Member(body, "user") == Some(JNull)
    ensures Member(body, "user").Some? && Member(body, "user").value.JStr? && IsObjectIdHex(Member(body, "user").value.s) ==>
      r == SetOwner(CastId(Member(body, "user").value.s))
    ensures r == OwnerCastError <==>
      Member(body, "user").Some? && Member(body, "user").value != JNull && CastValue(Member(body, "user").value).None?
    ensures r.SetOwner? && r.owner.Some? ==> Some(r.owner.value) == CastValue(Member(body, "user").value)
  {
    match Member(body, "user")
    case None => KeepOwner
    case Some(JNull) => SetOwner(None)
    case Some(v) => if CastValue(v).Some? then SetOwner(CastValue(v)) else OwnerCastError
  }

  /** `findByIdAndUpdate(id, body)`: every field of the body replaces the stored one, `user` included. */
  function UpdatedCv(cv: Cv, body: Json): (r: Cv)
    requires ValidCvBody(body) && !CastOwnerField(body).OwnerCastError?
    ensures CastOwnerField(body).KeepOwner? ==> r.owner == cv.owner
    ensures CastOwnerField(body).SetOwner? ==> r.owner == CastOwnerField(body).owner
  {
    match CastOwnerField(body)
    case KeepOwner => CvFromBody(cv.owner, body)
    case SetOwner(owner) => CvFromBody(owner, body)
  }

  /** Sending a CV's own content back, without `user`, leaves it as it was. */
  lemma UpdateWithOwnContent(cv: Cv)
    requires Presentable(cv)
    ensures ValidCvBody(CvToBody(cv)) && !CastOwnerField(CvToBody(cv)).OwnerCastError?
    ensures UpdatedCv(cv, CvToBody(cv)) == cv
  {
    CvRoundTrip(cv);
  }

  /** Applying the same update twice stores what applying it once does. */
  lemma UpdateIsIdempotent(cv: Cv, body: Json)
    requires ValidCvBody(body) && !CastOwnerField(body).OwnerCastError?
    ensures UpdatedCv(UpdatedCv(cv, body), body) == UpdatedCv(cv, body)
  {
  }

  /**
   * `updateCV` as written. After validation the update is written first;
   * only then is the owner of the UPDATED document compared with the
   * requester, so a 403 reply leaves the CV overwritten, and a body whose
   * `user` is the requester passes the check.
   */
  method UpdateCV(cvs: Collection<Cv>, me: Id, id: string, body: Json, isEmail: string -> bool, describe: Violation -> string)
    returns (status: Status)
    modifies cvs
    ensures !ValidCvBody(body) ==> status == BadRequest && cvs.docs == old(cvs.docs)
    ensures ValidCvBody(body) && (!IsObjectIdHex(id) || CastOwnerField(body).OwnerCastError?) ==>
      status == InternalError && cvs.docs == old(cvs.docs)
    ensures ValidCvBody(body) && IsObjectIdHex(id) && !CastOwnerField(body).OwnerCastError? ==>
      var key := CastId(id).value;
      && (key !in old(cvs.docs) ==> status == NotFound && cvs.docs == old(cvs.docs))
      && (key in old(cvs.docs) ==>
           && cvs.docs == old(cvs.docs)[key := UpdatedCv(old(cvs.docs)[key], body)]
           && (status == Ok <==> OwnedBy(cvs.docs[key], me))
           && (status == InternalError <==> cvs.docs[key].owner.None?)
           && (status != Ok && status != InternalError ==> status == Forbidden))
  {
    var isNotValid := VerifyCV(body, isEmail, describe);
    if !isNotValid.Passed() {
      return BadRequest;
    }
    var ownerCast := CastOwnerField(body);
    var key := CastId(id);
    if key.None? || ownerCast.OwnerCastError? {
      return InternalError;
    }
    if key.value !in cvs.docs {
      return NotFound;
    }
    var updatedCv := UpdatedCv(cvs.docs[key.value], body);
    cvs.docs := cvs.docs[key.value := updatedCv];
    // `updatedCv.user.toString() !== req.user.id`
    if updatedCv.owner.None? {
      return InternalError;
    }
    if updatedCv.owner.value != me {
      return Forbidden;
    }
    return Ok;
  }

  /** A requester who does not own a CV still overwrites it: the update changes the stored content and leaves it foreign. */
  lemma ForeignUpdateOverwrites(cv: Cv, me: Id, body: Json)
    requires ValidCvBody(body) && Member(body, "user").None?
    requires cv.owner.Some? && !OwnedBy(cv, me) && body.fields["title"] != JStr(cv.title)
    ensures UpdatedCv(cv, body) != cv && !OwnedBy(UpdatedCv(cv, body), me)
  {
  }

  /**
   * Naming oneself as `user` in the body, by id or by a document carrying
   * that id, passes the ownership check for any CV.
   */
  lemma UpdateClaimsOwnership(cv: Cv, me: Id, body: Json, doc: map<string, Json>)
    requires ValidCvBody(body) && "_id" in doc && doc["_id"] == JStr(me)
    requires Member(body, "user") == Some(JStr(me)) || Member(body, "user") == Some(JObj(doc))
    ensures !CastOwnerField(body).OwnerCastError? && OwnedBy(UpdatedCv(cv, body), me)
  {
    CastValueOfId(me, doc);
  }

  /**
   * `updateCV` with the ownership check moved before the write and the
   * body's `user` ignored: only the owner changes a CV, and it stays theirs.
   */
  method UpdateCVCorrected(cvs: Collection<Cv>, me: Id, id: string, body: Json, isEmail: string -> bool, describe: Violation -> string)
    returns (status: Status)
    modifies cvs
    ensures status != Ok ==> cvs.docs == old(cvs.docs)
    ensures status == Ok <==>
      ValidCvBody(body) && IsObjectIdHex(id) && CastId(id).value in old(cvs.docs)
      && OwnedBy(old(cvs.docs)[CastId(id).value], me)
    ensures status == Ok ==> cvs.docs == old(cvs.docs)[CastId(id).value := CvFromBody(Some(me), body)]
    ensures status == Forbidden <==>
      ValidCvBody(body) && IsObjectIdHex(id) && CastId(id).value in old(cvs.docs)
      && !OwnedBy(old(cvs.docs)[CastId(id).value], me)
    ensures AllWellFormed(old(cvs.docs)) ==> AllWellFormed(cvs.docs)
  {
    var isNotValid := VerifyCV(body, isEmail, describe);
    if !isNotValid.Passed() {
      return BadRequest;
    }
    match FindById(cvs.docs, id)
    case CastFailed => return InternalError;
    case Missing => return NotFound;
    case Found(key, cv) =>
      if !OwnedBy(cv, me) {
        return Forbidden;
      }
      cvs.docs := cvs.docs[key := CvFromBody(Some(me), body)];
      return Ok;
  }

  /**
   * `deleteCV` as written: the CV is deleted first and its owner compared
   * afterwards, so a requester who does not own it gets 403 with the CV gone.
   */
  method DeleteCV(cvs: Collection<Cv>, me: Id, id: string) returns (status: Status)
    modifies cvs
    ensures !IsObjectIdHex(id) ==> status == InternalError && cvs.docs == old(cvs.docs)
    ensures IsObjectIdHex(id) ==>
      var key := CastId(id).value;
      && (key !in old(cvs.docs) ==> status == NotFound && cvs.docs == old(cvs.docs))
      && (key in old(cvs.docs) ==>
           && cvs.docs == old(cvs.docs) - {key}
           && (status == Ok <==> OwnedBy(old(cvs.docs)[key], me))
           && (status == InternalError <==> old(cvs.docs)[key].owner.None?)
           && (status != Ok && status != InternalError ==> status == Forbidden))
  {
    match FindById(cvs.docs, id)
    case CastFailed => return InternalError;
    case Missing => return NotFound;
    case Found(key, cv) =>
      cvs.docs := cvs.docs - {key};
      if cv.owner.None? {
        return InternalError;
      }
      if cv.owner.value != me {
        return Forbidden;
      }
      return Ok;
  }

  /** `deleteCV` with the ownership check before the deletion: only the owner removes a CV. */
  method DeleteCVCorrected(cvs: Collection<Cv>, me: Id, id: string) returns (status: Status)
    modifies cvs
    ensures status != Ok ==> cvs.docs == old(cvs.docs)
    ensures status == Ok <==> IsObjectIdHex(id) && CastId(id).value in old(cvs.docs) && OwnedBy(old(cvs.docs)[CastId(id).value], me)
    ensures status == Ok ==> cvs.docs == old(cvs.docs) - {CastId(id).value}
    ensures status == Forbidden <==>
      IsObjectIdHex(id) && CastId(id).value in old(cvs.docs) && !OwnedBy(old(cvs.docs)[CastId(id).value], me)
  {
    match FindById(cvs.docs, id)
    case CastFailed => return InternalError;
    case Missing => return NotFound;
    case Found(key, cv) =>
      if !OwnedBy(cv, me) {
        return Forbidden;
      }
      cvs.docs := cvs.docs - {key};
      return Ok;
  }
}

=== FILE: cv_model.dfy ===
/** The `cv` schema (src/models/CV.js). */
module CvModel {
  import opened Wrappers
  import opened Store

  /** The `visibility` enum; a document built without one gets `Public`. */
  datatype Visibility = Public | Private

  datatype Experience = Experience(
    company: string, position: string, startDate: string,
    endDate: Option<string>, description: Option<string>)

  datatype Education = Education(school: string, degree: string, startDate: string, endDate: Option<string>)

  /**
   * A CV document. `owner` is the `user` reference; it is `None` only when an
   * update has set it to `null`, which the update path does not validate.
   */
  datatype Cv = Cv(
    owner: Option<Id>,
    title: string,
    summary: string,
    skills: seq<string>,
    experiences: seq<Experience>,
    education: seq<Education>,
    visibility: Visibility)

  /** The schema's required fields, checked by `save()`: an owner reference and a non-empty title. */
  predicate WellFormed(cv: Cv) {
    cv.owner.Some? && cv.title != ""
  }

  /** The `user` reference points at `me`. */
  predicate OwnedBy(cv: Cv, me: Id) {
    cv.owner == Some(me)
  }
}

=== FILE: cv_validator.dfy ===
/** `verifyCV` (src/validator/cv.js): the request-body schema of CV creation and update. */
module CvValidator {
  import opened Wrappers
  import opened Text
  import opened Json
  import opened Jsonschema
  import opened Verdicts
  import opened Store
  import opened CvModel

  /** `{ type: 'string', minLength: 1 }`. */
  const NonEmptyText := StringSchema(StringRule(1, None, AnyFormat, AnyPattern, None), None)

  const ExperienceSchema := ObjectSchema(
    [("company", NonEmptyText), ("position", NonEmptyText), ("startDate", NonEmptyText),
     ("endDate", NonEmptyText), ("description", NonEmptyText)],
    ["company", "position", "startDate"], None)

  const EducationSchema := ObjectSchema(
    [("school", NonEmptyText), ("degree", NonEmptyText), ("startDate", NonEmptyText), ("endDate", NonEmptyText)],
    ["school", "degree", "startDate"], None)

  const VisibilitySchema := StringSchema(StringRule(0, None, AnyFormat, AnyPattern, Some(["public", "private"])), None)

  const SkillsSchema := ArraySchema(NonEmptyText, 1, None)
  const ExperiencesSchema := ArraySchema(ExperienceSchema, 0, None)
  const EducationListSchema := ArraySchema(EducationSchema, 0, None)

  const CvSchema := ObjectSchema(
    [("title", NonEmptyText), ("summary", NonEmptyText), ("skills", SkillsSchema),
     ("experiences", ExperiencesSchema), ("education", EducationListSchema), ("visibility", VisibilitySchema)],
    ["title", "summary", "skills", "experiences", "education", "visibility"], None)

  // The schema's rules, stated field by field.

  predicate IsText(v: Json) {
    v.JStr? && v.s != ""
  }

  predicate HasText(f: map<string, Json>, key: string) {
    key in f && IsText(f[key])
  }

  predicate OptionalText(f: map<string, Json>, key: string) {
    key in f ==> IsText(f[key])
  }

  predicate ValidExperience(e: Json) {
    && e.JObj?
    && HasText(e.fields, "company") && HasText(e.fields, "position") && HasText(e.fields, "startDate")
    && OptionalText(e.fields, "endDate") && OptionalText(e.fields, "description")
  }

  predicate ValidEducation(e: Json) {
    && e.JObj?
    && HasText(e.fields, "school") && HasText(e.fields, "degree") && HasText(e.fields, "startDate")
    && OptionalText(e.fields, "endDate")
  }

  /** A non-empty array of non-empty strings. */
  predicate ValidSkills(v: Json) {
    v.JArr? && |v.items| >= 1 && forall i :: 0 <= i < |v.items| ==> IsText(v.items[i])
  }

  predicate ValidExperiences(v: Json) {
    v.JArr? && forall i :: 0 <= i < |v.items| ==> ValidExperience(v.items[i])
  }

  predicate ValidEducationList(v: Json) {
    v.JArr? && forall i :: 0 <= i < |v.items| ==> ValidEducation(v.items[i])
  }

  predicate ValidVisibility(v: Json) {
    v == JStr("public") || v == JStr("private")
  }

  /**
   * All six fields present; title and summary non-empty strings; skills a
   * non-empty array of non-empty strings; every experience and education
   * entry complete; visibility "public" or "private".
   */
  predicate ValidCvBody(b: Json) {
    && b.JObj?
    && HasText(b.fields, "title") && HasText(b.fields, "summary")
    && "skills" in b.fields && ValidSkills(b.fields["skills"])
    && "experiences" in b.fields && ValidExperiences(b.fields["experiences"])
    && "education" in b.fields && ValidEducationList(b.fields["education"])
    && "visibility" in b.fields && ValidVisibility(b.fields["visibility"])
  }

  lemma ExperienceSchemaMeaning(e: Json, isEmail: string -> bool)
    ensures Conforms(ExperienceSchema, e, isEmail) <==> ValidExperience(e)
  {
    if e.JObj? {
      var f, ps := e.fields, ExperienceSchema.properties;
      PropertiesConformAll(ExperienceSchema, f, 0, isEmail);
      assert PropertyHolds(ps[0], f, isEmail) <==> OptionalText(f, "company");
      assert PropertyHolds(ps[1], f, isEmail) <==> OptionalText(f, "position");
      assert PropertyHolds(ps[2], f, isEmail) <==> OptionalText(f, "startDate");
      assert PropertyHolds(ps[3], f, isEmail) <==> OptionalText(f, "endDate");
      assert PropertyHolds(ps[4], f, isEmail) <==> OptionalText(f, "description");
    }
  }

  lemma EducationSchemaMeaning(e: Json, isEmail: string -> bool)
    ensures Conforms(EducationSchema, e, isEmail) <==> ValidEducation(e)
  {
    if e.JObj? {
      var f, ps := e.fields, EducationSchema.properties;
      PropertiesConformAll(EducationSchema, f, 0, isEmail);
      assert PropertyHolds(ps[0], f, isEmail) <==> OptionalText(f, "school");
      assert PropertyHolds(ps[1], f, isEmail) <==> OptionalText(f, "degree");
      assert PropertyHolds(ps[2], f, isEmail) <==> OptionalText(f, "startDate");
      assert PropertyHolds(ps[3], f, isEmail) <==> OptionalText(f, "endDate");
    }
  }

  lemma ExperiencesSchemaMeaning(v: Json, isEmail: string -> bool)
    ensures Conforms(ExperiencesSchema, v, isEmail) <==> ValidExperiences(v)
  {
    forall e ensures Conforms(ExperienceSchema, e, isEmail) <==> ValidExperience(e) {
      ExperienceSchemaMeaning(e, isEmail);
    }
  }

  lemma EducationListSchemaMeaning(v: Json, isEmail: string -> bool)
    ensures Conforms(EducationListSchema, v, isEmail) <==> ValidEducationList(v)
  {
    forall e ensures Conforms(EducationSchema, e, isEmail) <==> ValidEducation(e) {
      EducationSchemaMeaning(e, isEmail);
    }
  }

  /** The declared properties that are present all satisfy their rules. */
  lemma CvPropertiesMeaning(f: map<string, Json>, isEmail: string -> bool)
    ensures PropertiesConform(CvSchema, f, 0, isEmail) <==>
      && OptionalText(f, "title") && OptionalText(f, "summary")
      && ("skills" in f ==> ValidSkills(f["skills"]))
      && ("experiences" in f ==> ValidExperiences(f["experiences"]))
      && ("education" in f ==> ValidEducationList(f["education"]))
      && ("visibility" in f ==> ValidVisibility(f["visibility"]))
  {
    var ps := CvSchema.properties;
    PropertiesConformAll(CvSchema, f, 0, isEmail);
    if "experiences" in f {
      ExperiencesSchemaMeaning(f["experiences"], isEmail);
    }
    if "education" in f {
      EducationListSchemaMeaning(f["education"], isEmail);
    }
    assert PropertyHolds(ps[0], f, isEmail) <==> OptionalText(f, "title");
    assert PropertyHolds(ps[1], f, isEmail) <==> OptionalText(f, "summary");
    assert PropertyHolds(ps[2], f, isEmail) <==> ("skills" in f ==> ValidSkills(f["skills"]));
    assert PropertyHolds(ps[3], f, isEmail) <==> ("experiences" in f ==> ValidExperiences(f["experiences"]));
    assert PropertyHolds(ps[4], f, isEmail) <==> ("education" in f ==> ValidEducationList(f["education"]));
    assert PropertyHolds(ps[5], f, isEmail) <==> ("visibility" in f ==> ValidVisibility(f["visibility"]));
  }

  /** The declared schema means exactly the field rules above. */
  lemma CvSchemaMeaning(b: Json, isEmail: string -> bool)
    ensures Conforms(CvSchema, b, isEmail) <==> ValidCvBody(b)
  {
    if b.JObj? {
      CvPropertiesMeaning(b.fields, isEmail);
    }
  }

  function CvViolations(body: Json, isEmail: string -> bool): seq<Violation> {
    Validate(CvSchema, body, [], isEmail)
  }

  /**
   * `verifyCV(body)`: success exactly when the body follows the rules;
   * otherwise the messages of all violations joined by ", ".
   */
  function VerifyCV(body: Json, isEmail: string -> bool, describe: Violation -> string): (r: Verdict)
    ensures r.Passed() <==> ValidCvBody(body)
    ensures r.Passed() ==> r == Pass
    ensures !r.Passed() ==>
      && r.success == Some(false)
      && |CvViolations(body, isEmail)| > 0
      && r.message == Some(Join(Messages(CvViolations(body, isEmail), describe), ", "))
  {
    var errors := CvViolations(body, isEmail);
    NoViolationsIffConforms(CvSchema, body, [], isEmail);
    CvSchemaMeaning(body, isEmail);
    if |errors| > 0 then Verdict(Some(false), Some(Join(Messages(errors, describe), ", "))) else Pass
  }
}

=== FILE: http.dfy ===
/** The HTTP status codes the handlers reply with: 200, 201, 400, 401, 403, 404 and 500. */
module Http {

  datatype Status = Ok | Created | BadRequest | Unauthorized | Forbidden | NotFound | InternalError
}

=== FILE: json.dfy ===
/**
 * Request bodies as parsed by `express.json()`, and the JavaScript coercions
 * the handlers apply to them (truthiness, loose equality).
 */
module Json {
  import opened Wrappers

  /**
   * A JSON value. Numbers are exact reals: the doubles `JSON.parse` rounds
   * decimal literals to, and the infinities it gives for out-of-range ones,
   * are not modelled.
   */
  datatype Json =
    | JNull
    | JBool(b: bool)
    | JNum(n: real)
    | JStr(s: string)
    | JArr(items: seq<Json>)
    | JObj(fields: map<string, Json>)

  /** `body.key`: `None` is `undefined`, the value of a missing key or of a key read on a non-object. */
  function Member(body: Json, key: string): (r: Option<Json>)
    ensures r.Some? <==> body.JObj? && key in body.fields
  {
    if body.JObj? && key in body.fields then Some(body.fields[key]) else None
  }

  /** `body.key` when it is a string. */
  function StringMember(body: Json, key: string): (r: Option<string>)
    ensures r.Some? <==> Member(body, key).Some? && Member(body, key).value.JStr?
    ensures r.Some? ==> Member(body, key) == Some(JStr(r.value))
  {
    match Member(body, key)
    case Some(JStr(s)) => Some(s)
    case _ => None
  }

  /** JavaScript truthiness of a value that may be `undefined`. */
  predicate Truthy(v: Option<Json>) {
    match v
    case None => false
    case Some(JNull) => false
    case Some(JBool(b)) => b
    case Some(JNum(n)) => n != 0.0
    case Some(JStr(s)) => s != ""
    case Some(JArr(_)) => true
    case Some(JObj(_)) => true
  }

  predicate IsInteger(n: real) {
    n.Floor as real == n
  }

  /** Whether an array element prints as nothing when an array is converted to a string. */
  predicate PrintsEmpty(j: Json) {
    match j
    case JNull => true
    case JStr(s) => s == ""
    case JArr(items) => |items| == 0 || (|items| == 1 && PrintsEmpty(items[0]))
    case _ => false
  }

  /** `v == ""` with JavaScript's loose equality, `v` possibly `undefined`. */
  predicate LooselyEqualsEmpty(v: Option<Json>) {
    match v
    case None => false
    case Some(JNull) => false
    case Some(JBool(b)) => !b
    case Some(JNum(n)) => n == 0.0
    case Some(JStr(s)) => s == ""
    case Some(JArr(items)) => PrintsEmpty(JArr(items))
    case Some(JObj(_)) => false
  }
}

=== FILE: jsonschema.dfy ===
/**
 * The part of the `jsonschema` library the validators rely on: a schema is a
 * value, `Validate` lists the violations in the order the library reports
 * them (keyword by keyword, as each schema declares them), and `Conforms` is
 * the plain meaning of a schema. `NoViolationsIffConforms` connects the two.
 */
module Jsonschema {
  import opened Wrappers
  import opened Text
  import opened Json

  datatype Format = AnyFormat | EmailFormat
  datatype Pattern = AnyPattern | ObjectIdPattern | PasswordPattern

  /** The string keywords in the order the schemas declare them: minLength, maxLength, format, pattern, enum. */
  datatype StringRule = StringRule(
    minLength: nat,
    maxLength: Option<nat>,
    format: Format,
    pattern: Pattern,
    oneOf: Option<seq<string>>)

  /** A schema; `hint` is its `errorMessage`, which replaces the library's text for its own violations. */
  datatype Schema =
    | StringSchema(rule: StringRule, hint: Option<string>)
    | IntegerSchema(minimum: int, maximum: int, hint: Option<string>)
    | ArraySchema(items: Schema, minItems: nat, hint: Option<string>)
    | ObjectSchema(properties: seq<(string, Schema)>, required: seq<string>, hint: Option<string>)

  datatype Segment = Key(name: string) | Index(i: nat)

  datatype Keyword =
    | Type | MinLength | MaxLength | FormatKeyword | PatternKeyword | Enum
    | Minimum | Maximum | MinItems | Required(property: string)

  /** One entry of `result.errors`: where, which keyword, and the `errorMessage` of the schema holding the keyword. */
  datatype Violation = Violation(path: seq<Segment>, keyword: Keyword, hint: Option<string>)

  predicate PatternHolds(p: Pattern, s: string) {
    match p
    case AnyPattern => true
    case ObjectIdPattern => IsObjectIdHex(s)
    case PasswordPattern => PasswordShape(s)
  }

  predicate FormatHolds(f: Format, s: string, isEmail: string -> bool) {
    match f
    case AnyFormat => true
    case EmailFormat => isEmail(s)
  }

  predicate StringConforms(r: StringRule, s: string, isEmail: string -> bool) {
    && |s| >= r.minLength
    && (r.maxLength.Some? ==> |s| <= r.maxLength.value)
    && FormatHolds(r.format, s, isEmail)
    && PatternHolds(r.pattern, s)
    && (r.oneOf.Some? ==> s in r.oneOf.value)
  }

  /** What it means for a value to satisfy a schema. */
  predicate Conforms(sc: Schema, v: Json, isEmail: string -> bool)
    decreases sc, 1
  {
    match sc
    case StringSchema(r, _) => v.JStr? && StringConforms(r, v.s, isEmail)
    case IntegerSchema(lo, hi, _) => v.JNum? && IsInteger(v.n) && lo as real <= v.n <= hi as real
    case ArraySchema(items, minItems, _) =>
      && v.JArr? && |v.items| >= minItems
      && forall i :: 0 <= i < |v.items| ==> Conforms(items, v.items[i], isEmail)
    case ObjectSchema(props, req, _) =>
      && v.JObj?
      && PropertiesConform(sc, v.fields, 0, isEmail)
      && forall name :: name in req ==> name in v.fields
  }

  /** Every declared property from index `k` on that is present satisfies its schema. */
  predicate PropertiesConform(sc: Schema, fields: map<string, Json>, k: nat, isEmail: string -> bool)
    requires sc.ObjectSchema? && k <= |sc.properties|
    decreases sc, 0, |sc.properties| - k
  {
    if k == |sc.properties| then true
    else
      var (name, sub) := sc.properties[k];
      assert sc.properties[k] in sc.properties;
      && (name in fields ==> Conforms(sub, fields[name], isEmail))
      && PropertiesConform(sc, fields, k + 1, isEmail)
  }

  /** A declared property holds when it is absent or its value satisfies its schema. */
  predicate PropertyHolds(p: (string, Schema), fields: map<string, Json>, isEmail: string -> bool) {
    p.0 in fields ==> Conforms(p.1, fields[p.0], isEmail)
  }

  /** `PropertiesConform` unrolled: every declared property from `k` on holds. */
  lemma {:induction false} PropertiesConformAll(sc: Schema, fields: map<string, Json>, k: nat, isEmail: string -> bool)
    requires sc.ObjectSchema? && k <= |sc.properties|
    ensures PropertiesConform(sc, fields, k, isEmail) <==>
      forall j :: k <= j < |sc.properties| ==> PropertyHolds(sc.properties[j], fields, isEmail)
    decreases |sc.properties| - k
  {
    if k < |sc.properties| {
      PropertiesConformAll(sc, fields, k + 1, isEmail);
    }
  }

  function StringViolations(r: StringRule, s: string, path: seq<Segment>, hint: Option<string>, isEmail: string -> bool): seq<Violation> {
    (if |s| < r.minLength then [Violation(path, MinLength, hint)] else [])
    + (if r.maxLength.Some? && |s| > r.maxLength.value then [Violation(path, MaxLength, hint)] else [])
    + (if !FormatHolds(r.format, s, isEmail) then [Violation(path, FormatKeyword, hint)] else [])
    + (if !PatternHolds(r.pattern, s) then [Violation(path, PatternKeyword, hint)] else [])
  }

  /**
   * `validator.validate(v, sc).errors`. Keywords that apply to one kind of
   * value are skipped for the others; `enum` applies to every kind of value.
   */
  function Validate(sc: Schema, v: Json, path: seq<Segment>, isEmail: string -> bool): seq<Violation>
    decreases sc, 1
  {
    match sc
    case StringSchema(r, hint) =>
      (if v.JStr? then StringViolations(r, v.s, path, hint, isEmail) else [Violation(path, Type, hint)])
      + (if r.oneOf.Some? && !(v.JStr? && v.s in r.oneOf.value) then [Violation(path, Enum, hint)] else [])
    case IntegerSchema(lo, hi, hint) =>
      (if v.JNum? && IsInteger(v.n) then [] else [Violation(path, Type, hint)])
      + (if v.JNum? && v.n < lo as real then [Violation(path, Minimum, hint)] else [])
      + (if v.JNum? && v.n > hi as real then [Violation(path, Maximum, hint)] else [])
    case ArraySchema(_, minItems, hint) =>
      if !v.JArr? then [Violation(path, Type, hint)]
      else
        ValidateItems(sc, v.items, 0, path, isEmail)
        + (if |v.items| < minItems then [Violation(path, MinItems, hint)] else [])
    case ObjectSchema(_, req, hint) =>
      if !v.JObj? then [Violation(path, Type, hint)]
      else ValidateProperties(sc, v.fields, 0, path, isEmail) + MissingRequired(req, v.fields, path, hint)
  }

  function ValidateItems(sc: Schema, vs: seq<Json>, k: nat, path: seq<Segment>, isEmail: string -> bool): seq<Violation>
    requires sc.ArraySchema? && k <= |vs|
    decreases sc, 0, |vs| - k
  {
    if k == |vs| then []
    else Validate(sc.items, vs[k], path + [Index(k)], isEmail) + ValidateItems(sc, vs, k + 1, path, isEmail)
  }

  function ValidateProperties(sc: Schema, fields: map<string, Json>, k: nat, path: seq<Segment>, isEmail: string -> bool): seq<Violation>
    requires sc.ObjectSchema? && k <= |sc.properties|
    decreases sc, 0, |sc.properties| - k
  {
    if k == |sc.properties| then []
    else
      var (name, sub) := sc.properties[k];
      assert sc.properties[k] in sc.properties;
      (if name in fields then Validate(sub, fields[name], path + [Key(name)], isEmail) else [])
      + ValidateProperties(sc, fields, k + 1, path, isEmail)
  }

  /** One `required` violation per listed property that is absent, in the order listed. */
  function MissingRequired(req: seq<string>, fields: map<string, Json>, path: seq<Segment>, hint: Option<string>): seq<Violation> {
    if req == [] then []
    else
      (if req[0] in fields then [] else [Violation(path, Required(req[0]), hint)])
      + MissingRequired(req[1..], fields, path, hint)
  }

  /** `error.schema.errorMessage || error.message`, the library's own text given by `describe`. */
  function MessageOf(v: Violation, describe: Violation -> string): string {
    if v.hint.Some? && v.hint.value != "" then v.hint.value else describe(v)
  }

  function Messages(vs: seq<Violation>, describe: Violation -> string): (ms: seq<string>)
    ensures |ms| == |vs|
    ensures forall i :: 0 <= i < |vs| ==> ms[i] == MessageOf(vs[i], describe)
  {
    if vs == [] then [] else [MessageOf(vs[0], describe)] + Messages(vs[1..], describe)
  }

  // The error list is empty exactly when the value satisfies the schema.

  lemma {:induction false} MissingRequiredEmpty(req: seq<string>, fields: map<string, Json>, path: seq<Segment>, hint: Option<string>)
    ensures MissingRequired(req, fields, path, hint) == [] <==> forall name :: name in req ==> name in fields
  {
    if req != [] {
      MissingRequiredEmpty(req[1..], fields, path, hint);
      assert forall name :: name in req ==> name == req[0] || name in req[1..];
    }
  }

  lemma {:induction false} NoViolationsIffConforms(sc: Schema, v: Json, path: seq<Segment>, isEmail: string -> bool)
    ensures Validate(sc, v, path, isEmail) == [] <==> Conforms(sc, v, isEmail)
    decreases sc, 1
  {
    match sc
    case StringSchema(_, _) =>
    case IntegerSchema(_, _, _) =>
    case ArraySchema(_, _, _) =>
      if v.JArr? {
        ItemsNoViolations(sc, v.items, 0, path, isEmail);
      }
    case ObjectSchema(_, req, hint) =>
      if v.JObj? {
        PropertiesNoViolations(sc, v.fields, 0, path, isEmail);
        MissingRequiredEmpty(req, v.fields, path, hint);
      }
  }

  lemma {:induction false} ItemsNoViolations(sc: Schema, vs: seq<Json>, k: nat, path: seq<Segment>, isEmail: string -> bool)
    requires sc.ArraySchema? && k <= |vs|
    ensures ValidateItems(sc, vs, k, path, isEmail) == [] <==> forall i :: k <= i < |vs| ==> Conforms(sc.items, vs[i], isEmail)
    decreases sc, 0, |vs| - k
  {
    if k < |vs| {
      NoViolationsIffConforms(sc.items, vs[k], path + [Index(k)], isEmail);
      ItemsNoViolations(sc, vs, k + 1, path, isEmail);
    }
  }

  lemma {:induction false} PropertiesNoViolations(sc: Schema, fields: map<string, Json>, k: nat, path: seq<Segment>, isEmail: string -> bool)
    requires sc.ObjectSchema? && k <= |sc.properties|
    ensures ValidateProperties(sc, fields, k, path, isEmail) == [] <==> PropertiesConform(sc, fields, k, isEmail)
    decreases sc, 0, |sc.properties| - k
  {
    if k < |sc.properties| {
      var (name, sub) := sc.properties[k];
      assert sc.properties[k] in sc.properties;
      if name in fields {
        NoViolationsIffConforms(sub, fields[name], path + [Key(name)], isEmail);
      }
      PropertiesNoViolations(sc, fields, k + 1, path, isEmail);
    }
  }
}

=== FILE: jwt_middleware.dfy ===
/** `verifyToken` (src/middleware/jwt.js): from an `Authorization` header to an authenticated requester. */
module JwtMiddleware {
  import opened Wrappers
  import opened Text
  import opened Store
  import opened Http
  import opened UserModel
  import opened Collaborators

  const BearerPrefix := "Bearer "

  /**
   * The token an `Authorization` header carries: the header less its
   * case-sensitive "Bearer " prefix; none when the header is missing, empty
   * or lacks the prefix.
   */
  function BearerToken(header: Option<string>): (r: Option<string>)
    ensures r.Some? <==> header.Some? && StartsWith(header.value, BearerPrefix)
    ensures r.Some? ==> header.value == BearerPrefix + r.value
  {
    if header.Some? && StartsWith(header.value, BearerPrefix) then Some(header.value[|BearerPrefix|..]) else None
  }

  /** Stripping the prefix undoes adding it. */
  lemma BearerTokenOfHeader(token: string)
    ensures BearerToken(Some(BearerPrefix + token)) == Some(token)
  {
    var h := BearerPrefix + token;
    assert h[..|BearerPrefix|] == BearerPrefix;
    assert h[|BearerPrefix|..] == token;
  }

  /** Why a request is turned away. */
  datatype Rejection =
    | NoToken        // 401 "No token provided or malformed authorization header"
    | InvalidToken   // 401 "Invalid token" (JsonWebTokenError)
    | TokenExpired   // 401 "Token expired" (TokenExpiredError)
    | UnknownUser    // 401 "Invalid token: user not found"
    | VerifyFailed   // 500, any other error `jwt.verify` throws
  {
    function Status(): (s: Status)
      ensures s == InternalError <==> this == VerifyFailed
      ensures s != InternalError ==> s == Unauthorized
    {
      if VerifyFailed? then InternalError else Unauthorized
    }
  }

  datatype AuthOutcome = Rejected(reason: Rejection) | Authenticated(principal: Principal)

  /** The decision `verifyToken` takes for a header, given the user table and `jwt.verify`. */
  function Authenticate(users: map<Id, User>, header: Option<string>, verify: string -> TokenCheck): (r: AuthOutcome)
    requires UniqueAccounts(users)
    ensures r == Rejected(NoToken) <==> BearerToken(header).None?
    ensures BearerToken(header).Some? ==>
      match verify(BearerToken(header).value)
      case Malformed => r == Rejected(InvalidToken)
      case Expired => r == Rejected(TokenExpired)
      case NotYetActive => r == Rejected(VerifyFailed)
      case Decoded(email) =>
        && (r == Rejected(UnknownUser) <==> forall id :: id in users ==> users[id].email != email)
        && (r.Rejected? ==> r.reason == UnknownUser)
    ensures r.Authenticated? ==>
      && BearerToken(header).Some? && verify(BearerToken(header).value).Decoded?
      && r.principal.id in users && users[r.principal.id] == r.principal.account
      && r.principal.account.email == verify(BearerToken(header).value).email
  {
    match BearerToken(header)
    case None => Rejected(NoToken)
    case Some(token) =>
      match verify(token)
      case Malformed => Rejected(InvalidToken)
      case Expired => Rejected(TokenExpired)
      case NotYetActive => Rejected(VerifyFailed)
      case Decoded(email) =>
        match FindByEmail(users, email)
        case None => Rejected(UnknownUser)
        case Some(id) => Authenticated(Principal(id, users[id]))
  }

  /** The parts of an Express request and response the middleware reads and writes. */
  class Request {
    const authorization: Option<string>
    /** `req.user`. */
    var user: Option<Principal>
    /** How many times `next()` has been called. */
    var nextCalls: nat
    /** The status of the reply sent, if one was sent. */
    var reply: Option<Status>

    constructor (authorization: Option<string>)
      ensures this.authorization == authorization
      ensures user == None && nextCalls == 0 && reply == None
    {
      this.authorization := authorization;
      user := None;
      nextCalls := 0;
      reply := None;
    }
  }

  /**
   * `verifyToken(req, res, next)`: on success `req.user` is set and `next`
   * is called once, and nothing is replied; otherwise a reply is sent and
   * neither `req.user` nor `next` is touched.
   */
  method VerifyToken(users: Collection<User>, req: Request, verify: string -> TokenCheck)
    requires UniqueAccounts(users.docs)
    modifies req
    ensures match Authenticate(users.docs, req.authorization, verify)
      case Authenticated(p) =>
        req.user == Some(p) && req.nextCalls == old(req.nextCalls) + 1 && req.reply == old(req.reply)
      case Rejected(why) =>
        req.user == old(req.user) && req.nextCalls == old(req.nextCalls) && req.reply == Some(why.Status())
  {
    var authHeader := req.authorization;
    if authHeader.None? || !StartsWith(authHeader.value, BearerPrefix) {
      req.reply := Some(Unauthorized);
      return;
    }
    var token := authHeader.value[|BearerPrefix|..];
    var decoded := verify(token);
    if decoded.Malformed? || decoded.Expired? {
      req.reply := Some(Unauthorized);
      return;
    } else if decoded.NotYetActive? {
      req.reply := Some(InternalError);
      return;
    }
    var found := FindByEmail(users.docs, decoded.email);
    if found.None? {
      req.reply := Some(Unauthorized);
      return;
    }
    req.user := Some(Principal(found.value, users.docs[found.value]));
    req.nextCalls := req.nextCalls + 1;
  }
}

=== FILE: recommendation_controller.dfy ===
/**
 * The recommendation handlers (src/controllers/recommendation.js) over the
 * recommendation and CV collections. `me` is `req.user.id`.
 */
module RecommendationController {
  import opened Wrappers
  import opened Text
  import opened Json
  import opened Jsonschema
  import opened Verdicts
  import opened Store
  import opened Http
  import CvModel
  import opened RecommendationModel
  import opened RecommendationValidator

  /**
   * `createRecommendation` as written. The validator returns an object in
   * every case and an object is always truthy, so the handler replies 400
   * every time, with the validator's message, or none after a pass, and
   * never reaches the store.
   */
  method CreateRecommendation(body: Json, isEmail: string -> bool, describe: Violation -> string)
    returns (status: Status, error: Option<string>)
    ensures status == BadRequest
    ensures error.None? <==> ValidRecommendationBody(body)
    ensures error.Some? ==> error.value == TrimStart(Join(Messages(RecommendationViolations(body, isEmail), describe), ", "))
  {
    var isNotValid := VerifyRecommendation(body, isEmail, describe);
    // `if (isNotValid)`: the verdict is an object, hence truthy.
    return BadRequest, isNotValid.message;
  }

  /**
   * How `findById(body.cv)` treats the body's `cv` field: absent or `null`
   * finds nothing, a hexadecimal string is cast, and any other value fails
   * the query's cast (a plain object under `_id` is read as operators).
   */
  datatype CvReference = NoReference | Reference(id: Id) | ReferenceCastError

  function CvReferenceOf(body: Json): (r: CvReference)
    ensures r == NoReference <==> Member(body, "cv").None? || Member(body, "cv") == Some(JNull)
    ensures r.Reference? <==> Member(body, "cv").Some? && Member(body, "cv").value.JStr? && IsObjectIdHex(Member(body, "cv").value.s)
    ensures r.Reference? ==> Some(r.id) == CastId(Member(body, "cv").value.s)
  {
    match Member(body, "cv")
    case None => NoReference
    case Some(JNull) => NoReference
    case Some(JStr(s)) => if IsObjectIdHex(s) then Reference(CastId(s).value) else ReferenceCastError
    case Some(_) => ReferenceCastError
  }

  /** The document `createRecommendation` saves: written by the requester, about the body's CV. */
  function NewRecommendation(me: Id, cv: Id, body: Json): (r: Recommendation)
    requires ValidRecommendationBody(body)
    ensures WellFormed(r) && WrittenBy(r, me) && r.cv == cv
  {
    Recommendation(cv, me, body.fields["content"].s, Some(body.fields["rating"].n))
  }

  /** The schema's invariant over the whole collection. */
  predicate AllWellFormed(docs: map<Id, Recommendation>) {
    forall id :: id in docs ==> WellFormed(docs[id])
  }

  /**
   * `createRecommendation` with the validator's result read through its
   * `success` field: an invalid body gets 400; no CV reference or an unknown
   * CV gets 404; a reference that is not an ObjectId gets 500; otherwise the
   * recommendation is inserted with the requester as author and gets 201.
   */
  method CreateRecommendationCorrected(recs: Collection<Recommendation>, cvs: Collection<CvModel.Cv>, me: Id, body: Json,
                                       newId: Id, isEmail: string -> bool, describe: Violation -> string)
    returns (status: Status)
    requires newId !in recs.docs
    modifies recs
    ensures status != Created ==> recs.docs == old(recs.docs)
    ensures status == BadRequest <==> !ValidRecommendationBody(body)
    ensures ValidRecommendationBody(body) ==>
      match CvReferenceOf(body)
      case NoReference => status == NotFound
      case ReferenceCastError => status == InternalError
      case Reference(cv) =>
        && (cv !in cvs.docs ==> status == NotFound)
        && (cv in cvs.docs ==> status == Created && recs.docs == old(recs.docs)[newId := NewRecommendation(me, cv, body)])
    ensures AllWellFormed(old(recs.docs)) ==> AllWellFormed(recs.docs)
  {
    var isNotValid := VerifyRecommendation(body, isEmail, describe);
    if !isNotValid.Passed() {
      return BadRequest;
    }
    match CvReferenceOf(body)
    case NoReference => return NotFound;
    case ReferenceCastError => return InternalError;
    case Reference(cv) =>
      if cv !in cvs.docs {
        return NotFound;
      }
      recs.docs := recs.docs[newId := NewRecommendation(me, cv, body)];
      return Created;
  }

  /**
   * `getRecommendationsByCv`: 404 for an unknown CV, otherwise exactly the
   * recommendations about it, whatever the CV's visibility.
   */
  method GetRecommendationsByCv(recs: Collection<Recommendation>, cvs: Collection<CvModel.Cv>, cvId: string)
    returns (status: Status, listed: map<Id, Recommendation>)
    ensures !IsObjectIdHex(cvId) ==> status == InternalError
    ensures IsObjectIdHex(cvId) && CastId(cvId).value !in cvs.docs ==> status == NotFound
    ensures status == Ok <==> IsObjectIdHex(cvId) && CastId(cvId).value in cvs.docs
    ensures status == Ok ==>
      && (forall id :: id in listed <==> id in recs.docs && recs.docs[id].cv == CastId(cvId).value)
      && (forall id :: id in listed ==> listed[id] == recs.docs[id])
    ensures status != Ok ==> listed == map[]
  {
    match FindById(cvs.docs, cvId)
    case CastFailed => return InternalError, map[];
    case Missing => return NotFound, map[];
    case Found(cv, _) =>
      listed := map id | id in recs.docs && recs.docs[id].cv == cv :: recs.docs[id];
      return Ok, listed;
  }

  /** `getRecommendationById`: the recommendation with that id, or 404 (500 for an id that is not an ObjectId). */
  method GetRecommendationById(recs: Collection<Recommendation>, id: string) returns (status: Status, found: Option<Recommendation>)
    ensures !IsObjectIdHex(id) ==> status == InternalError && found == None
    ensures IsObjectIdHex(id) ==>
      var key := CastId(id).value;
      && (key !in recs.docs ==> status == NotFound && found == None)
      && (key in recs.docs ==> status == Ok && found == Some(recs.docs[key]))
  {
    match FindById(recs.docs, id)
    case CastFailed => return InternalError, None;
    case Missing => return NotFound, None;
    case Found(_, r) => return Ok, Some(r);
  }

  /** `updateRecommendation`: the same truthiness test as creation, so 400 every time and no write. */
  method UpdateRecommendation(body: Json, isEmail: string -> bool, describe: Violation -> string)
    returns (status: Status, error: Option<string>)
    ensures status == BadRequest
    ensures error.None? <==> ValidRecommendationBody(body)
  {
    var isNotValid := VerifyRecommendation(body, isEmail, describe);
    return BadRequest, isNotValid.message;
  }

  /**
   * `deleteRecommendation`: 404 before 403; the record is removed only when
   * the requester wrote it (the owner of the CV it is about has no say).
   */
  method DeleteRecommendation(recs: Collection<Recommendation>, me: Id, id: string) returns (status: Status)
    modifies recs
    ensures status != Ok ==> recs.docs == old(recs.docs)
    ensures !IsObjectIdHex(id) ==> status == InternalError
    ensures IsObjectIdHex(id) ==>
      var key := CastId(id).value;
      && (key !in old(recs.docs) ==> status == NotFound)
      && (key in old(recs.docs) && !WrittenBy(old(recs.docs)[key], me) ==> status == Forbidden)
      && (key in old(recs.docs) && WrittenBy(old(recs.docs)[key], me) ==> status == Ok && recs.docs == old(recs.docs) - {key})
    ensures AllWellFormed(old(recs.docs)) ==> AllWellFormed(recs.docs)
  {
    match FindById(recs.docs, id)
    case CastFailed => return InternalError;
    case Missing => return NotFound;
    case Found(key, r) =>
      if r.author != me {
        return Forbidden;
      }
      recs.docs := recs.docs - {key};
      return Ok;
  }
}

=== FILE: recommendation_model.dfy ===
/** The `recommendation` schema (src/models/Recommendation.js). */
module RecommendationModel {
  import opened Wrappers
  import opened Store

  /**
   * A recommendation: the CV it is about, its author (the `user` reference,
   * unrelated to the CV's owner), its text and its rating.
   */
  datatype Recommendation = Recommendation(cv: Id, author: Id, content: string, rating: Option<real>)

  /** The schema's validation on `save()`: content required, a rating if any within [1, 5]. */
  predicate WellFormed(r: Recommendation) {
    r.content != "" && (r.rating.Some? ==> 1.0 <= r.rating.value <= 5.0)
  }

  predicate WrittenBy(r: Recommendation, me: Id) {
    r.author == me
  }
}

=== FILE: recommendation_validator.dfy ===
/** `verifyRecommendation` (src/validator/recommendation.js). */
module RecommendationValidator {
  import opened Wrappers
  import opened Text
  import opened Json
  import opened Jsonschema
  import opened Verdicts

  const CvIdSchema := StringSchema(StringRule(0, None, AnyFormat, ObjectIdPattern, None), Some("CV ID must be a valid MongoDB ObjectId"))
  const ContentSchema := StringSchema(StringRule(1, None, AnyFormat, AnyPattern, None), Some("Recommendation content is missing or invalid"))
  const RatingSchema := IntegerSchema(1, 5, Some("Rating must be an integer between 1 and 5"))

  const RecommendationSchema := ObjectSchema(
    [("cvId", CvIdSchema), ("content", ContentSchema), ("rating", RatingSchema)],
    ["content", "rating"], None)

  /** A whole number from 1 to 5. */
  predicate ValidRating(v: Json) {
    v.JNum? && IsInteger(v.n) && 1.0 <= v.n <= 5.0
  }

  /**
   * `content` a non-empty string, `rating` a whole number from 1 to 5, and
   * `cvId`, when present, 24 hexadecimal digits.
   */
  predicate ValidRecommendationBody(b: Json) {
    && b.JObj?
    && ("cvId" in b.fields ==> b.fields["cvId"].JStr? && IsObjectIdHex(b.fields["cvId"].s))
    && "content" in b.fields && b.fields["content"].JStr? && b.fields["content"].s != ""
    && "rating" in b.fields && ValidRating(b.fields["rating"])
  }

  /** The declared schema means exactly the rules above. */
  lemma RecommendationSchemaMeaning(b: Json, isEmail: string -> bool)
    ensures Conforms(RecommendationSchema, b, isEmail) <==> ValidRecommendationBody(b)
  {
    if b.JObj? {
      var f, ps := b.fields, RecommendationSchema.properties;
      PropertiesConformAll(RecommendationSchema, f, 0, isEmail);
      assert PropertyHolds(ps[0], f, isEmail) <==> ("cvId" in f ==> f["cvId"].JStr? && IsObjectIdHex(f["cvId"].s));
      assert PropertyHolds(ps[1], f, isEmail) <==> ("content" in f ==> f["content"].JStr? && f["content"].s != "");
      assert PropertyHolds(ps[2], f, isEmail) <==> ("rating" in f ==> ValidRating(f["rating"]));
    }
  }

  /** `m1 + ", " + m2 + ", " + …`, the string the `forEach` loop accumulates. */
  function CommaTerminated(ms: seq<string>): string {
    if ms == [] then "" else CommaTerminated(ms[..|ms| - 1]) + ms[|ms| - 1] + ", "
  }

  lemma {:induction false} CommaTerminatedIsJoin(ms: seq<string>)
    requires ms != []
    ensures CommaTerminated(ms) == Join(ms, ", ") + ", "
  {
    if |ms| > 1 {
      CommaTerminatedIsJoin(ms[..|ms| - 1]);
    } else {
      assert ms[..0] == [];
    }
  }

  /** `s.replace(/,$/, "")`: one comma at the very end of the string is removed. */
  function DropFinalComma(s: string): (r: string)
    ensures s == r || s == r + ","
    ensures r != s <==> |s| > 0 && s[|s| - 1] == ','
  {
    if |s| > 0 && s[|s| - 1] == ',' then s[..|s| - 1] else s
  }

  /**
   * The cleaning step: trimming the accumulated string and dropping its final
   * comma leaves the messages joined by ", ", less any leading whitespace of
   * the first message.
   */
  lemma CleanedIsJoin(ms: seq<string>)
    requires ms != []
    ensures DropFinalComma(Trim(CommaTerminated(ms))) == TrimStart(Join(ms, ", "))
  {
    var j := Join(ms, ", ");
    CommaTerminatedIsJoin(ms);
    TrimEndAfterComma(j);
    TrimStartAppend(j, ',');
    assert Trim(CommaTerminated(ms)) == TrimStart(j) + ",";
  }

  function RecommendationViolations(body: Json, isEmail: string -> bool): seq<Violation> {
    Validate(RecommendationSchema, body, [], isEmail)
  }

  /**
   * `verifyRecommendation(body)`: `{ success: true }` exactly when the body
   * follows the rules; otherwise `{ message }` alone (no `success` field),
   * the violation messages joined by ", ".
   */
  method VerifyRecommendation(body: Json, isEmail: string -> bool, describe: Violation -> string) returns (r: Verdict)
    ensures r.Passed() <==> ValidRecommendationBody(body)
    ensures r.Passed() ==> r == Pass
    ensures !r.Passed() ==>
      && r.success.None?
      && r.message == Some(TrimStart(Join(Messages(RecommendationViolations(body, isEmail), describe), ", ")))
  {
    var errors := RecommendationViolations(body, isEmail);
    NoViolationsIffConforms(RecommendationSchema, body, [], isEmail);
    RecommendationSchemaMeaning(body, isEmail);
    if |errors| > 0 {
      var ms := Messages(errors, describe);
      var failedInputs := "";
      var i := 0;
      while i < |errors|
        invariant 0 <= i <= |errors|
        invariant failedInputs == CommaTerminated(ms[..i])
      {
        assert ms[..i + 1][..i] == ms[..i];
        failedInputs := failedInputs + MessageOf(errors[i], describe) + ", ";
        i := i + 1;
      }
      assert ms[..i] == ms;
      CleanedIsJoin(ms);
      return Verdict(None, Some(DropFinalComma(Trim(failedInputs))));
    }
    return Pass;
  }
}

=== FILE: store.dfy ===
/**
 * The document store as the handlers see it: each collection is a mutable
 * table from ObjectId to document, and lookups by id go through Mongoose's
 * cast of the id string.
 */
module Store {
  import opened Wrappers
  import opened Text
  import opened Json

  /** A MongoDB ObjectId in the text form `doc.id` and `toString()` give: 24 lower-case hexadecimal digits. */
  type Id = s: string | IsCanonicalObjectId(s) witness "000000000000000000000000"

  /**
   * Mongoose's cast of a string to an ObjectId; `None` stands for a
   * CastError. Upper- and lower-case digits denote the same ObjectId.
   */
  function CastId(s: string): (r: Option<Id>)
    ensures r.Some? <==> IsObjectIdHex(s)
    ensures r.Some? ==> r.value == CanonicalObjectId(s)
  {
    if IsObjectIdHex(s) then Some(CanonicalObjectId(s)) else None
  }

  /** An id in its printed form casts to itself. */
  lemma CastPrintedId(id: Id)
    ensures CastId(id) == Some(id)
  {
  }

  /** Two hexadecimal strings cast to the same id exactly when they differ at most in letter case. */
  lemma CastIdIgnoresCase(s: string, t: string)
    requires IsObjectIdHex(s) && IsObjectIdHex(t)
    ensures CastId(s) == CastId(t) <==> forall i :: 0 <= i < 24 ==> LowerHexDigit(s[i]) == LowerHexDigit(t[i])
  {
    if forall i :: 0 <= i < 24 ==> LowerHexDigit(s[i]) == LowerHexDigit(t[i]) {
      assert CanonicalObjectId(s) == CanonicalObjectId(t);
    }
  }

  /**
   * The string Mongoose's ObjectId cast reads from a JSON value: a string
   * itself, or the `_id` of an object whose `_id` is a non-empty string.
   * Every other value (a number, a boolean, an object without such an `_id`)
   * is read through a `toString()` that never gives 24 hexadecimal digits.
   */
  function CastText(v: Json): Option<string> {
    match v
    case JStr(s) => Some(s)
    case JObj(f) => if "_id" in f && f["_id"].JStr? && f["_id"].s != "" then Some(f["_id"].s) else None
    case _ => None
  }

  /** Mongoose's cast of a JSON value other than `null` to an ObjectId; `None` stands for a CastError. */
  function CastValue(v: Json): (r: Option<Id>)
    ensures r.Some? <==> CastText(v).Some? && IsObjectIdHex(CastText(v).value)
    ensures r.Some? ==> r == CastId(CastText(v).value)
  {
    match CastText(v)
    case None => None
    case Some(s) => CastId(s)
  }

  /** A printed id, or a document that carries it as `_id`, casts to that id. */
  lemma CastValueOfId(id: Id, doc: map<string, Json>)
    requires "_id" in doc && doc["_id"] == JStr(id)
    ensures CastValue(JStr(id)) == Some(id) && CastValue(JObj(doc)) == Some(id)
  {
    CastPrintedId(id);
  }

  datatype Lookup<T> = CastFailed | Missing | Found(id: Id, doc: T)

  /** `Model.findById(id)`: a CastError for an id that is not an ObjectId, `null` for an unknown one. */
  function FindById<T>(docs: map<Id, T>, id: string): (r: Lookup<T>)
    ensures r.CastFailed? <==> !IsObjectIdHex(id)
    ensures r.Missing? <==> CastId(id).Some? && CastId(id).value !in docs
    ensures r.Found? ==> Some(r.id) == CastId(id) && r.id in docs && r.doc == docs[r.id]
  {
    match CastId(id)
    case None => CastFailed
    case Some(key) => if key in docs then Found(key, docs[key]) else Missing
  }

  /** A MongoDB collection. */
  class Collection<T> {
    var docs: map<Id, T>

    constructor ()
      ensures docs == map[]
    {
      docs := map[];
    }
  }
}

=== FILE: text.dfy ===
/**
 * String helpers behind the JavaScript string operations the service uses:
 * `join`, `trim`, `startsWith`, and the regular expressions of the schemas.
 * Strings are sequences of Unicode scalar values.
 */
module Text {

  /** Characters that `String.prototype.trim` removes: white space and line terminators. */
  predicate IsWhitespace(c: char) {
    c == ' ' || c == '\t' || c == '\n' || c == '\r' || c == '\U{B}' || c == '\U{C}'
    || c == '\U{A0}' || c == '\U{1680}' || ('\U{2000}' <= c && c <= '\U{200A}')
    || c == '\U{2028}' || c == '\U{2029}' || c == '\U{202F}' || c == '\U{205F}'
    || c == '\U{3000}' || c == '\U{FEFF}'
  }

  /** Characters that a regular-expression `.` does not match. */
  predicate IsLineTerminator(c: char) {
    c == '\n' || c == '\r' || c == '\U{2028}' || c == '\U{2029}'
  }

  function TrimStart(s: string): (r: string)
    ensures |r| <= |s| && r == s[|s| - |r|..]
    ensures r == [] || !IsWhitespace(r[0])
  {
    if |s| > 0 && IsWhitespace(s[0]) then TrimStart(s[1..]) else s
  }

  function TrimEnd(s: string): (r: string)
    ensures |r| <= |s| && r == s[..|r|]
    ensures r == [] || !IsWhitespace(r[|r| - 1])
  {
    if |s| > 0 && IsWhitespace(s[|s| - 1]) then TrimEnd(s[..|s| - 1]) else s
  }

  /** `s.trim()`. */
  function Trim(s: string): string {
    TrimStart(TrimEnd(s))
  }

  /** `parts.join(sep)`. */
  function Join(parts: seq<string>, sep: string): string {
    if |parts| == 0 then ""
    else if |parts| == 1 then parts[0]
    else Join(parts[..|parts| - 1], sep) + sep + parts[|parts| - 1]
  }

  /** `s.startsWith(prefix)`. */
  predicate StartsWith(s: string, prefix: string) {
    |prefix| <= |s| && s[..|prefix|] == prefix
  }

  predicate IsHexDigit(c: char) {
    ('0' <= c <= '9') || ('a' <= c <= 'f') || ('A' <= c <= 'F')
  }

  /** The pattern `^[0-9a-fA-F]{24}$`: the text form of a MongoDB ObjectId. */
  predicate IsObjectIdHex(s: string) {
    |s| == 24 && forall i :: 0 <= i < |s| ==> IsHexDigit(s[i])
  }

  /** An ObjectId as it prints: 24 hexadecimal digits in lower case. */
  predicate IsCanonicalObjectId(s: string) {
    |s| == 24 && forall i :: 0 <= i < |s| ==> ('0' <= s[i] <= '9') || ('a' <= s[i] <= 'f')
  }

  function LowerHexDigit(c: char): (r: char)
    requires IsHexDigit(c)
    ensures ('0' <= r <= '9') || ('a' <= r <= 'f')
  {
    if 'A' <= c <= 'F' then (c as int - 'A' as int + 'a' as int) as char else c
  }

  /** The ObjectId a hexadecimal string denotes, in its printed form: the digits in lower case. */
  function CanonicalObjectId(s: string): (r: string)
    requires IsObjectIdHex(s)
    ensures IsCanonicalObjectId(r)
    ensures forall i :: 0 <= i < |s| ==> r[i] == LowerHexDigit(s[i])
    ensures IsCanonicalObjectId(s) ==> r == s
  {
    seq(|s|, i requires 0 <= i < |s| => LowerHexDigit(s[i]))
  }

  /** No line terminator among `s[lo..hi]`. */
  predicate SingleLine(s: string, lo: int, hi: int)
    requires 0 <= lo <= hi <= |s|
  {
    forall k :: lo <= k < hi ==> !IsLineTerminator(s[k])
  }

  /**
   * The unanchored pattern `.+@.+\..+` of the user schema: some characters,
   * an "@", some characters, a ".", some characters, all on one line.
   */
  predicate EmailShape(s: string) {
    exists at, dot :: 0 < at && at + 1 < dot && dot + 1 < |s|
      && s[at] == '@' && s[dot] == '.' && SingleLine(s, at - 1, dot + 2)
  }

  /**
   * The password pattern `^(?=.*[A-Z])(?=.*[0-9]).+$`: a non-empty single line
   * holding at least one upper-case letter and at least one digit.
   */
  predicate PasswordShape(s: string) {
    && |s| > 0
    && SingleLine(s, 0, |s|)
    && (exists i :: 0 <= i < |s| && 'A' <= s[i] <= 'Z')
    && (exists i :: 0 <= i < |s| && '0' <= s[i] <= '9')
  }

  /** Trimming at the front commutes with appending a character that is not white space. */
  lemma {:induction false} TrimStartAppend(s: string, c: char)
    requires !IsWhitespace(c)
    ensures TrimStart(s + [c]) == TrimStart(s) + [c]
  {
    if |s| > 0 && IsWhitespace(s[0]) {
      assert (s + [c])[1..] == s[1..] + [c];
      TrimStartAppend(s[1..], c);
    }
  }

  /** Trimming at the end stops at the last character that is not white space. */
  lemma TrimEndAfterComma(s: string)
    ensures TrimEnd(s + ", ") == s + ","
  {
    assert (s + ", ")[..|s| + 1] == s + ",";
  }
}

=== FILE: user_controller.dfy ===
/**
 * The account handlers (src/controllers/user.js). `me` is `req.user`: the
 * requester's id and the document the token middleware loaded, whose
 * `password` is the stored bcrypt hash.
 */
module UserController {
  import opened Wrappers
  import opened Text
  import opened Json
  import opened Store
  import opened Http
  import opened UserModel

  /**
   * `if (v) user.field = v`: a falsy value keeps the field, a truthy string
   * replaces it, and any other truthy value is one the string path cannot
   * hold (`None`), which makes a later `save()` fail.
   */
  function ApplyField(current: string, v: Option<Json>): (r: Option<string>)
    ensures !Truthy(v) ==> r == Some(current)
    ensures Truthy(v) && v.value.JStr? ==> r == Some(v.value.s)
    ensures r.None? <==> Truthy(v) && !v.value.JStr?
  {
    if !Truthy(v) then Some(current)
    else if v.value.JStr? then Some(v.value.s)
    else None
  }

  /** The loaded user after the four conditional assignments; the password is untouched. */
  function EditedUser(u: User, body: Json): (r: Option<User>)
    ensures r.Some? ==> r.value.password == u.password
    ensures r.Some? ==>
      && Some(r.value.firstname) == ApplyField(u.firstname, Member(body, "firstname"))
      && Some(r.value.lastname) == ApplyField(u.lastname, Member(body, "lastname"))
      && Some(r.value.email) == ApplyField(u.email, Member(body, "email"))
      && Some(r.value.username) == ApplyField(u.username, Member(body, "username"))
    ensures r.None? <==>
      || ApplyField(u.firstname, Member(body, "firstname")).None?
      || ApplyField(u.lastname, Member(body, "lastname")).None?
      || ApplyField(u.email, Member(body, "email")).None?
      || ApplyField(u.username, Member(body, "username")).None?
  {
    var firstname := ApplyField(u.firstname, Member(body, "firstname"));
    var lastname := ApplyField(u.lastname, Member(body, "lastname"));
    var email := ApplyField(u.email, Member(body, "email"));
    var username := ApplyField(u.username, Member(body, "username"));
    if firstname.Some? && lastname.Some? && email.Some? && username.Some? then
      Some(User(username.value, firstname.value, lastname.value, email.value, u.password))
    else None
  }

  /** An edit sent twice stores the same document as an edit sent once. */
  lemma EditIsIdempotent(u: User, body: Json)
    ensures EditedUser(u, body).Some? ==> EditedUser(EditedUser(u, body).value, body) == EditedUser(u, body)
  {
  }

  /**
   * An edit of a valid account keeps every required field non-empty, so of
   * the schema's rules only the email pattern can reject the edited document.
   */
  lemma EditKeepsRequiredFields(u: User, body: Json)
    requires WellFormed(u)
    ensures EditedUser(u, body).Some? ==>
      var v := EditedUser(u, body).value;
      WellFormed(v) <==> EmailShape(v.email)
  {
  }

  /**
   * The condition guarding the save: `password != ""` (true when the field
   * is absent) and `oldPassword == req.user.password`, a comparison with the
   * stored hash itself. The unawaited `bcrypt.compare` between them is a
   * Promise, always truthy, so it never blocks.
   */
  predicate PasswordBranch(body: Json, me: Principal) {
    !LooselyEqualsEmpty(Member(body, "password")) && Member(body, "oldPassword") == Some(JStr(me.account.password))
  }

  /** The email the reply reports: the in-memory value after the assignments, saved or not. */
  function ReportedEmail(u: User, body: Json): string {
    var v := Member(body, "email");
    if Truthy(v) && v.value.JStr? then v.value.s else u.email
  }

  /**
   * `updateMyInfos` as written. The edited document is saved only inside
   * the password branch; outside it the reply is 200 and nothing is stored.
   * Inside it, a password that is not a string makes `bcrypt.hash` throw,
   * and a save that breaks the schema or a unique index fails, both 500
   * with nothing stored. A stored password is always the hash of the new one.
   */
  method UpdateMyInfos(users: Collection<User>, me: Principal, body: Json, hash: string -> string)
    returns (status: Status, reportedEmail: string)
    requires UniqueAccounts(users.docs)
    modifies users
    ensures me.id !in old(users.docs) ==> status == NotFound && users.docs == old(users.docs)
    ensures me.id in old(users.docs) ==>
      var stored := old(users.docs)[me.id];
      && (!PasswordBranch(body, me) ==> status == Ok && users.docs == old(users.docs) && reportedEmail == ReportedEmail(stored, body))
      && (PasswordBranch(body, me) && StringMember(body, "password").None? ==>
            status == InternalError && users.docs == old(users.docs))
      && (PasswordBranch(body, me) && StringMember(body, "password").Some? ==>
            var saved := EditedUser(stored, body);
            var p := StringMember(body, "password").value;
            if saved.Some? && Admissible(old(users.docs), me.id, saved.value.(password := hash(p))) then
              && status == Ok && users.docs == old(users.docs)[me.id := saved.value.(password := hash(p))]
              && reportedEmail == users.docs[me.id].email
            else
              status == InternalError && users.docs == old(users.docs))
    ensures UniqueAccounts(users.docs)
  {
    if me.id !in users.docs {
      return NotFound, "";
    }
    var user := users.docs[me.id];
    var edited := EditedUser(user, body);
    var password := Member(body, "password");
    if !LooselyEqualsEmpty(password) {
      if Member(body, "oldPassword") == Some(JStr(me.account.password)) {
        if StringMember(body, "password").None? {
          return InternalError, "";
        }
        if edited.None? {
          return InternalError, "";
        }
        var updated := edited.value.(password := hash(password.value.s));
        if !Admissible(users.docs, me.id, updated) {
          return InternalError, "";
        }
        SaveKeepsAccountsUnique(users.docs, me.id, updated);
        users.docs := users.docs[me.id := updated];
        return Ok, updated.email;
      }
    }
    return Ok, ReportedEmail(user, body);
  }

  /** A profile edit sent without `oldPassword` misses the branch, so it is replied 200 and not stored. */
  lemma ProfileEditIsNotSaved(me: Principal)
    ensures !PasswordBranch(JObj(map["firstname" := JStr("Ann")]), me)
  {
    var body := JObj(map["firstname" := JStr("Ann")]);
    assert Member(body, "oldPassword") == None;
  }

  /**
   * The document the corrected handler saves: the edited fields, with the
   * password replaced by the hash of the new one when `oldPassword` matches
   * the stored hash under `bcrypt.compare`.
   */
  function CorrectedEdit(u: User, body: Json, hash: string -> string, compare: (string, string) -> bool): (r: Option<User>)
    ensures r.Some? <==> EditedUser(u, body).Some?
    ensures r.Some? ==> r.value.(password := u.password) == EditedUser(u, body).value
    ensures r.Some? ==>
      r.value.password ==
        if && StringMember(body, "password").Some? && StringMember(body, "password").value != ""
           && StringMember(body, "oldPassword").Some? && compare(StringMember(body, "oldPassword").value, u.password)
        then hash(StringMember(body, "password").value)
        else u.password
  {
    match EditedUser(u, body)
    case None => None
    case Some(edited) =>
      var password, oldPassword := StringMember(body, "password"), StringMember(body, "oldPassword");
      if password.Some? && password.value != "" && oldPassword.Some? && compare(oldPassword.value, edited.password)
      then Some(edited.(password := hash(password.value)))
      else Some(edited)
  }

  /**
   * `updateMyInfos` as its replies describe it: the edits are saved whether
   * or not the password changes, and the password changes only when
   * `oldPassword` matches the stored hash under `bcrypt.compare`. The reply
   * is 500 only when that document cannot be saved.
   */
  method UpdateMyInfosCorrected(users: Collection<User>, me: Principal, body: Json, hash: string -> string,
                                compare: (string, string) -> bool)
    returns (status: Status)
    requires UniqueAccounts(users.docs)
    modifies users
    ensures me.id !in old(users.docs) ==> status == NotFound && users.docs == old(users.docs)
    ensures me.id in old(users.docs) ==>
      var saved := CorrectedEdit(old(users.docs)[me.id], body, hash, compare);
      if saved.Some? && Admissible(old(users.docs), me.id, saved.value) then
        status == Ok && users.docs == old(users.docs)[me.id := saved.value]
      else
        status == InternalError && users.docs == old(users.docs)
    ensures UniqueAccounts(users.docs)
  {
    if me.id !in users.docs {
      return NotFound;
    }
    var saved := CorrectedEdit(users.docs[me.id], body, hash, compare);
    if saved.None? || !Admissible(users.docs, me.id, saved.value) {
      return InternalError;
    }
    SaveKeepsAccountsUnique(users.docs, me.id, saved.value);
    users.docs := users.docs[me.id := saved.value];
    return Ok;
  }

  /**
   * A stand-in for the text `toString()` gives a Mongoose document: an
   * object literal, so it begins with "{".
   */
  function DocumentText(id: Id, u: User): (t: string)
    ensures |t| > 0 && t[0] == '{'
  {
    "{ _id: new ObjectId('" + id + "'), username: '" + u.username + "', email: '" + u.email + "' }"
  }

  /** The text of a document is never an id, so the comparison in `deleteUser` always differs. */
  lemma DocumentTextIsNotAnId(id: Id, u: User, other: Id)
    ensures DocumentText(id, u) != other
  {
    assert other[0] != '{';
  }

  /**
   * `deleteUser` as written: the requester's account is deleted first; then
   * `user.toString()` is compared with the id, which never matches, so every
   * deletion is replied 403.
   */
  method DeleteUser(users: Collection<User>, me: Principal) returns (status: Status)
    modifies users
    ensures me.id !in old(users.docs) ==> status == NotFound && users.docs == old(users.docs)
    ensures me.id in old(users.docs) ==> status == Forbidden && users.docs == old(users.docs) - {me.id}
    ensures UniqueAccounts(old(users.docs)) ==> UniqueAccounts(users.docs)
  {
    if me.id !in users.docs {
      return NotFound;
    }
    var user := users.docs[me.id];
    users.docs := users.docs - {me.id};
    DocumentTextIsNotAnId(me.id, user, me.id);
    if DocumentText(me.id, user) != me.id {
      return Forbidden;
    }
    return Ok;
  }

  /** `deleteUser` comparing the deleted document's id: the requester's own account is deleted with 200. */
  method DeleteUserCorrected(users: Collection<User>, me: Principal) returns (status: Status)
    modifies users
    ensures me.id !in old(users.docs) ==> status == NotFound && users.docs == old(users.docs)
    ensures me.id in old(users.docs) ==> status == Ok && users.docs == old(users.docs) - {me.id}
    ensures UniqueAccounts(old(users.docs)) ==> UniqueAccounts(users.docs)
  {
    if me.id !in users.docs {
      return NotFound;
    }
    users.docs := users.docs - {me.id};
    return Ok;
  }
}

=== FILE: user_model.dfy ===
/** The `User` schema (src/models/User.js) and its two static methods. */
module UserModel {
  import opened Wrappers
  import opened Text
  import opened Json
  import opened Store

  datatype User = User(username: string, firstname: string, lastname: string, email: string, password: string)

  /** The authenticated user attached to a request: its id and the document the middleware loaded. */
  datatype Principal = Principal(id: Id, account: User)

  /** The schema's per-document validation: every field required (non-empty), the email matching its pattern. */
  predicate WellFormed(u: User) {
    && u.username != "" && u.firstname != "" && u.lastname != "" && u.email != "" && u.password != ""
    && EmailShape(u.email)
  }

  /** The unique indexes: no two accounts share a username or an email. */
  predicate UniqueAccounts(users: map<Id, User>) {
    forall a, b :: a in users && b in users && a != b ==>
      users[a].username != users[b].username && users[a].email != users[b].email
  }

  /** Whether `doc.save()` under `id` succeeds: the document validates and breaks no unique index. */
  predicate Admissible(users: map<Id, User>, id: Id, doc: User) {
    && WellFormed(doc)
    && forall other :: other in users && other != id ==>
         users[other].username != doc.username && users[other].email != doc.email
  }

  lemma SaveKeepsAccountsUnique(users: map<Id, User>, id: Id, doc: User)
    requires UniqueAccounts(users) && Admissible(users, id, doc)
    ensures UniqueAccounts(users[id := doc])
  {
  }

  /** `findOne({ email })`; the unique index on `email` makes the answer the only account with that email. */
  function FindByEmail(users: map<Id, User>, email: string): (r: Option<Id>)
    requires UniqueAccounts(users)
    ensures r.Some? ==> r.value in users && users[r.value].email == email
    ensures r.None? ==> forall id :: id in users ==> users[id].email != email
  {
    if exists id :: id in users && users[id].email == email then
      var id :| id in users && users[id].email == email; Some(id)
    else None
  }

  /** `checkUserExists(email, username)`: `findOne({ $or: [{ email }, { username }] })` found something. */
  predicate CheckUserExists(users: map<Id, User>, email: string, username: string) {
    exists id :: id in users && (users[id].email == email || users[id].username == username)
  }

  /**
   * For a new id and a document the schema accepts, the existence check is
   * exactly the unique-index test of `save()`: the document is admissible
   * if and only if no account has its email or its username.
   */
  lemma ExistenceCheckIsIndexTest(users: map<Id, User>, id: Id, doc: User)
    requires id !in users && WellFormed(doc)
    ensures Admissible(users, id, doc) <==> !CheckUserExists(users, doc.email, doc.username)
  {
    if CheckUserExists(users, doc.email, doc.username) {
      var other :| other in users && (users[other].email == doc.email || users[other].username == doc.username);
      assert other != id;
    }
  }

  /** A document that passes the existence check can be saved without breaking the unique indexes. */
  lemma {:induction false} NotExistingIsUnique(users: map<Id, User>, id: Id, doc: User)
    requires UniqueAccounts(users) && id !in users && WellFormed(doc)
    requires !CheckUserExists(users, doc.email, doc.username)
    ensures Admissible(users, id, doc) && UniqueAccounts(users[id := doc])
  {
    SaveKeepsAccountsUnique(users, id, doc);
  }

  /** Why `verifyLogin` fails: "User not found.", "Invalid credentials.", or the message of an error bcrypt throws. */
  datatype LoginFailure = UserNotFound | InvalidCredentials | CompareThrew

  datatype LoginResult = LoginSucceeded(user: Id) | LoginFailed(reason: LoginFailure)

  /**
   * `verifyLogin(email, password)`: find the account by email, then compare
   * the password with its hash; bcrypt throws on a password that is not a
   * string, and the catch turns that into a failure.
   */
  function VerifyLogin(users: map<Id, User>, email: string, password: Option<Json>, compare: (string, string) -> bool): (r: LoginResult)
    requires UniqueAccounts(users)
    ensures r == LoginFailed(UserNotFound) <==> forall id :: id in users ==> users[id].email != email
    ensures r.LoginSucceeded? <==>
      exists id :: id in users && users[id].email == email
        && password.Some? && password.value.JStr? && compare(password.value.s, users[id].password)
    ensures r.LoginSucceeded? ==> r.user in users && users[r.user].email == email
    ensures r == LoginFailed(CompareThrew) <==>
      (exists id :: id in users && users[id].email == email) && !(password.Some? && password.value.JStr?)
  {
    match FindByEmail(users, email)
    case None => LoginFailed(UserNotFound)
    case Some(id) =>
      match password
      case Some(JStr(p)) => if compare(p, users[id].password) then LoginSucceeded(id) else LoginFailed(InvalidCredentials)
      case _ => LoginFailed(CompareThrew)
  }
}

=== FILE: user_validator.dfy ===
/** `register` (src/validator/user.js): the registration schema, then the existence check. */
module UserValidator {
  import opened Wrappers
  import opened Text
  import opened Json
  import opened Jsonschema
  import opened Verdicts
  import opened UserModel
  import opened Store

  function NameSchema(hint: string): Schema {
    StringSchema(StringRule(1, Some(20), AnyFormat, AnyPattern, None), Some(hint))
  }

  const EmailSchema := StringSchema(StringRule(0, None, EmailFormat, AnyPattern, None), Some("User email is missing or incorrect"))
  const PasswordSchema := StringSchema(StringRule(6, None, AnyFormat, PasswordPattern, None),
    Some("User's password must contain at least one uppercase letter and one digit"))

  const UserSchema := ObjectSchema(
    [("firstname", NameSchema("User firstname is missing or incorrect")),
     ("lastname", NameSchema("User lastname is missing or incorrect")),
     ("username", NameSchema("User username is missing or incorrect")),
     ("email", EmailSchema),
     ("password", PasswordSchema)],
    ["username", "firstname", "lastname", "email", "password"], None)

  const AlreadyExists := "User already exists with the provided email or username"

  /** A string of 1 to 20 characters. */
  predicate ValidName(v: Json) {
    v.JStr? && 1 <= |v.s| <= 20
  }

  /** At least six characters, on one line, with an upper-case letter and a digit. */
  predicate ValidPassword(v: Json) {
    v.JStr? && |v.s| >= 6 && PasswordShape(v.s)
  }

  /** Every rule but the email format. */
  predicate ShapedUserBody(b: Json) {
    && b.JObj?
    && "firstname" in b.fields && ValidName(b.fields["firstname"])
    && "lastname" in b.fields && ValidName(b.fields["lastname"])
    && "username" in b.fields && ValidName(b.fields["username"])
    && "email" in b.fields && b.fields["email"].JStr?
    && "password" in b.fields && ValidPassword(b.fields["password"])
  }

  /** Names of 1 to 20 characters, an address the `email` format accepts, a strong password; all five present. */
  predicate ValidUserBody(b: Json, isEmail: string -> bool) {
    ShapedUserBody(b) && isEmail(b.fields["email"].s)
  }

  /** The declared schema means exactly the rules above. */
  lemma UserSchemaMeaning(b: Json, isEmail: string -> bool)
    ensures Conforms(UserSchema, b, isEmail) <==> ValidUserBody(b, isEmail)
  {
    if b.JObj? {
      var f, ps := b.fields, UserSchema.properties;
      PropertiesConformAll(UserSchema, f, 0, isEmail);
      assert PropertyHolds(ps[0], f, isEmail) <==> ("firstname" in f ==> ValidName(f["firstname"]));
      assert PropertyHolds(ps[1], f, isEmail) <==> ("lastname" in f ==> ValidName(f["lastname"]));
      assert PropertyHolds(ps[2], f, isEmail) <==> ("username" in f ==> ValidName(f["username"]));
      assert PropertyHolds(ps[3], f, isEmail) <==> ("email" in f ==> f["email"].JStr? && isEmail(f["email"].s));
      assert PropertyHolds(ps[4], f, isEmail) <==> ("password" in f ==> ValidPassword(f["password"]));
    }
  }

  function UserViolations(body: Json, isEmail: string -> bool): seq<Violation> {
    Validate(UserSchema, body, [], isEmail)
  }

  /**
   * `register(body)`: a body that breaks the schema fails with the joined
   * messages and the table is not consulted; a valid body fails when its
   * email or username is taken, and passes otherwise.
   */
  function Register(users: map<Id, User>, body: Json, isEmail: string -> bool, describe: Violation -> string): (r: Verdict)
    ensures r.Passed() <==>
      ValidUserBody(body, isEmail)
      && !CheckUserExists(users, body.fields["email"].s, body.fields["username"].s)
    ensures !ValidUserBody(body, isEmail) ==>
      r == Verdict(Some(false), Some(Join(Messages(UserViolations(body, isEmail), describe), ", ")))
    ensures ValidUserBody(body, isEmail) && !r.Passed() ==> r == Verdict(Some(false), Some(AlreadyExists))
  {
    var errors := UserViolations(body, isEmail);
    NoViolationsIffConforms(UserSchema, body, [], isEmail);
    UserSchemaMeaning(body, isEmail);
    if |errors| > 0 then Verdict(Some(false), Some(Join(Messages(errors, describe), ", ")))
    else if CheckUserExists(users, body.fields["email"].s, body.fields["username"].s) then Verdict(Some(false), Some(AlreadyExists))
    else Pass
  }
}

=== FILE: verdict.dfy ===
/** The objects the validators return: `{ success: true }`, `{ success: false, message }` or `{ message }`. */
module Verdicts {
  import opened Wrappers

  datatype Verdict = Verdict(success: Option<bool>, message: Option<string>) {

    /** `result.success` used as a condition: `undefined` and `false` both fail. */
    predicate Passed() {
      success == Some(true)
    }
  }

  /** `{ success: true }`. */
  const Pass := Verdict(Some(true), None)
}

=== FILE: wrappers.dfy ===
/** The optional value used throughout the model; `None` stands for JavaScript's `undefined`/`null` results. */
module Wrappers {

  datatype Option<+T> = None | Some(value: T)
}
